=== FILE: README.md ===
# Post ingestion and feed caching of the blog server, in Dafny

This project models the core of a small Go blog server (`main.go`). The
core is `parsePosts` and the handful of decisions around it:

- how each Markdown file under `posts/` is split on its `+++` front-matter
  markers and becomes a post;
- how the accepted posts become a map by ID and a newest-first list;
- how the Atom feed is built from the ten newest posts;
- how the cached feed, with its ETag and Last-Modified value, is updated;
- how the one-shot refresh gate (`postsOnce`) and the file watcher decide
  when the refresh runs;
- how `postHandler`, `feedHandler`, `errorHandler` and the not-found and
  method-not-allowed handlers answer.

All of it is written as pure functions over immutable values. The library
code the server calls is passed in as function-valued parameters: the TOML
decoder, the Markdown renderer, the feed template, the XML minifier and MD5.
The directory listing with the files' bytes, the clock and the formatted
HTTP date are passed in as data.

Modules, in dependency order:

| file | module | what it holds |
|---|---|---|
| `optional.dfy` | `Optional` | `Option` |
| `bytes.dfy` | `Bytes` | bytes, the `+++` marker, `bytes.Index` and `bytes.Count` |
| `front_matter.dfy` | `FrontMatter` | the front-matter split as written, the split as intended, and concrete inputs that separate them |
| `posts.dfy` | `Posts` | posts, times, file names and IDs, and parsing one file |
| `ordering.dfy` | `Ordering` | the newest-first sort |
| `post_index.dfy` | `PostIndex` | collecting the accepted posts, the map by ID and the index |
| `feed.dfy` | `Feed` | the feed's ten posts, hex and ETag, and the feed cache |
| `ingest.dfy` | `Ingest` | one whole refresh and what it guarantees |
| `error_pages.dfy` | `ErrorPages` | the error handler and the 404 and 405 handlers |
| `server.dfy` | `Server` | the refresh gate, file events, and the posts, post and feed handlers |

Behaviour of `main.go` worth knowing before reading the model:

- The metadata span is the bytes between the first two markers only when
  the file starts with `+++`. Line 170 takes the second marker's offset
  relative to `b[i+3:]` and then uses it as a position in `b` (see
  Findings).
- Posts with equal times have no fixed order. Lines 186-188 sort with
  `sort.Slice`, which is not stable, so the model promises only "newest
  first, same posts".
- The generic message "Internal Server Error" replaces the error's text
  only when the status is exactly 500 and debug mode is off (line 271).
  Other 5xx statuses show the error's text.
- IDs are not unique by construction. Line 176 decodes the front matter
  into the whole post, so front matter with an `ID` key overrides the ID
  taken from the file name. Two posts can then share an ID, and the map
  keeps the later one. "The map has as many entries as the list has
  posts" is proved only for listings where no front matter sets `ID`.

## Model

| member | source | states |
|---|---|---|
| Bytes.Index | main.go:169 | `bytes.Index` on the marker reports -1 or a position at which a full `+++` begins |
| Bytes.IndexFirst | main.go:169 | the reported position is the first occurrence: every marker in the bytes begins at or after it |
| Bytes.IndexNone | main.go:169 | the search reports -1 exactly when the bytes hold no marker |
| Bytes.IndexIsFirst | main.go:169 | a marker with no marker before it is the one the search reports |
| Bytes.IndexOfSuffix | main.go:170 | searching `b[s:]` finds the first marker of `b` at or after `s`, shifted by `s` |
| Bytes.IndexFromFirst | main.go:169 | the scan from a starting point misses no marker at or after that point |
| Bytes.CountNone | main.go:165 | `bytes.Count` is 0 exactly when the bytes hold no marker |
| Bytes.Count | main.go:165 | `bytes.Count` of the marker is 0 only when the search finds no marker; with `Bytes.CountNone` and `Bytes.CountAtLeastTwo` the count is 0 exactly when no marker occurs and at least 2 exactly when two non-overlapping markers occur |
| Bytes.CountAtLeastTwo | main.go:165-167 | the count reaches 2, so the file is not skipped, exactly when two markers occur with the second beginning after the first ends |
| Bytes.SecondSearchFinds | main.go:169-170 | once the count is at least 2, the second search in `b[i+3:]` finds a marker, so `j >= 3`, and a marker begins at the absolute position `i+3+(j-3)` |
| FrontMatter.Gap | main.go:170 | the second search's result is non-negative and names a marker that lies inside the file |
| FrontMatter.NoMarkerBeforeSecond | main.go:170 | no marker begins between the end of the first marker and the marker the second search finds |
| FrontMatter.Split | main.go:165-176 | the file is unmarked exactly when the count is below 2; when it splits, the lengths of metadata and body plus the two markers and the bytes before the first marker add up to the file's length |
| FrontMatter.SplitOfLeadingMarker | main.go:169-176 | for a file starting with `+++` and holding a second marker, the split as written is the bytes strictly between the two markers (no marker inside), and metadata, marker and body concatenate back to `b[3:]` |
| FrontMatter.SplitAgreesOnLeadingMarker | main.go:169-176 | on every file starting with `+++` the split as written equals the intended split |
| FrontMatter.SplitPanicsWhenShifted | main.go:169-176 | the split as written panics exactly when the first marker's position exceeds the length of the real metadata span |
| FrontMatter.SplitMetaShifted | main.go:169-176 | when it does not panic, the split as written loses the last `i` bytes of the real metadata, `i` being the first marker's position |
| FrontMatter.SplitBodyShifted | main.go:169-176 | when it does not panic, the split as written starts the body `i` bytes early and otherwise keeps the real body |
| FrontMatter.LeadingBytesPanic | main.go:169-176 | on `xxxx+++a+++` the code slices `b[7:4]` and panics, while the intended split gives metadata `a` and an empty body |
| FrontMatter.LeadingNewlineMarkers | main.go:165-170 | on `\n+++\nT\n+++\nbody` the count is at least 2, the first marker is at 1 and the second search reports 3 |
| FrontMatter.LeadingNewlineMisplacesSplit | main.go:169-176 | on `\n+++\nT\n+++\nbody` the split as written gives metadata `\nT` and body `+\nbody` |
| FrontMatter.LeadingNewlineIntendedSplit | main.go:169-176 | on the same bytes the intended split gives metadata `\nT\n` and body `\nbody` |
| FrontMatter.SplitIntended | main.go:169-176 | the corrected split never panics, is unmarked exactly when the count is below 2, and frames its metadata between the first marker and the next one |
| FrontMatter.IntendedMetaUnmarked | main.go:169-176 | no marker begins inside the intended metadata |
| FrontMatter.SplitIntendedRoundTrip | main.go:169-176 | prefix, marker, intended metadata, marker and intended body concatenate back to the file |
| FrontMatter.WellFormedSplit | main.go:169-176 | on `+++\nT\n+++\nb` the split as written gives metadata `\nT\n` and body `\nb` |
| Posts.PostID | main.go:173 | the ID is the name minus 6 + 3 characters; for a path matching `posts/*.md`, putting `posts/` and `.md` back gives the name, and the ID holds no `/` |
| Posts.PostPath | main.go:173 | every ID without `/` is the ID of the post path built from it |
| Posts.PostIDInjective | main.go:160-173 | distinct file names matching `posts/*.md` give distinct IDs |
| Posts.ExamplePostID | main.go:173 | `posts/2024-01-01.md` is a post path with ID `2024-01-01` |
| Posts.ToUTC | main.go:180 | `t.UTC()` keeps the instant and shows it in UTC |
| Posts.ToUTCKeepsOrder | main.go:180-187 | normalising to UTC is idempotent and does not change which of two times is after the other |
| Posts.After | main.go:187 | `a.After(b)` holds exactly when `a`'s instant is later than `b`'s, whatever zones they are shown in |
| Posts.AfterIsStrictOrder | main.go:186-188 | the comparison is irreflexive, asymmetric and transitive, and two times are incomparable exactly when their instants are equal |
| Posts.Overlay | main.go:176 | decoding into the post replaces each field the front matter sets with the decoded value and keeps every other field |
| Posts.OverlayLaws | main.go:176 | front matter that sets nothing leaves the post as it is, and decoding the same fields twice equals decoding them once |
| Posts.ParseFile | main.go:176-180 | an accepted post's time is in UTC |
| Posts.ParseFileOutcomes | main.go:165-178 | a file is skipped exactly when it has fewer than two markers or its front matter does not decode; parsing panics exactly when the metadata slice is inverted; a post whose front matter sets no `ID` carries its file's ID |
| Posts.AcceptedPostFields | main.go:172-180 | a field the front matter sets wins; otherwise the ID comes from the name, the title is empty and the content is the rendered body; the time's instant is the decoded one, or Go's zero time when absent |
| Posts.ExamplePostFile | main.go:163-180 | `posts/2024-01-01.md` holding `+++\nT\n+++\nb`, whose front matter decodes to the title `T`, becomes the post `2024-01-01` titled `T` at the zero time with the rendered body |
| Ordering.Insert | main.go:186-188 | inserting into a newest-first list keeps it newest first and adds exactly the new post to its members |
| Ordering.InsertPermutes | main.go:186-188 | inserting adds exactly one copy of the post to the multiset |
| Ordering.SortNewestFirst | main.go:186-188 | the sorted list has no post followed by a newer one and is a permutation of the input |
| PostIndex.Outcomes | main.go:163-184 | one outcome per listed file, and every accepted outcome's time is in UTC |
| PostIndex.OutcomeAt | main.go:163-184 | the `k`-th outcome is the parse of the `k`-th listed file |
| PostIndex.SomePanicsAt | main.go:163-184 | the listing panics exactly when some listed file's parse panics |
| PostIndex.AcceptedFromAt | main.go:163-184 | the listing yields a post exactly when some listed file's parse yields it |
| PostIndex.Collect | main.go:163-184 | the loop fails exactly when some file panics; otherwise it yields one post per accepted file, and its posts are exactly those the files yield, in listing order (`PostIndex.CollectedAfter`) |
| PostIndex.CollectedAfter | main.go:163-184 | the posts are collected in listing order: the post of each accepted file has a position in the list, and every post after that position is the post of a file listed later |
| PostIndex.CollectKeepsLastFile | main.go:163-184 | when no later accepted file shares its ID, an accepted file's post is the one the map keeps under that ID |
| PostIndex.MapOf | main.go:182 | the map's keys are exactly the posts' IDs, and each entry is one of the posts, filed under its own ID |
| PostIndex.MapOfLastWins | main.go:182 | for an ID, the last post carrying it is the one the map keeps |
| PostIndex.MapOfSize | main.go:161-182 | with distinct IDs the map has one entry per post |
| PostIndex.BuildIndex | main.go:182-191 | the index is coherent (keys are the list's IDs, entries are listed posts under their own IDs, newest first, UTC); its map is the listing-order map of `MapOf`, so a later post wins over an earlier one with its ID; the list is a permutation of the posts; and distinct IDs give equal sizes |
| PostIndex.IndexKeepsLastPost | main.go:182 | when IDs repeat, the index files under an ID the last post that carries it |
| Feed.Latest | main.go:193-196 | the feed gets the prefix of the ordered list of length `min(10, n)` |
| Feed.LatestAreNewest | main.go:193-196 | none of the posts left out of the feed is newer than a post it carries |
| Feed.FifteenPostsGiveTen | main.go:193-196 | with fifteen posts the feed carries exactly the first ten |
| Feed.Hex | main.go:208 | `%x` gives two lower-case hex digits per byte |
| Feed.HexRoundTrip | main.go:208 | reading the hex digits back gives the digest bytes |
| Feed.ETag | main.go:208 | the ETag is 34 characters, a double quote, 32 hex digits from which the MD5 digest reads back, and a double quote |
| Feed.UpdateFeed | main.go:206-210 | the cache ends up holding the new bytes; it changes only if the bytes differ; when they differ, the ETag is that of the new bytes and Last-Modified is the given time |
| Feed.UpdateFeedTwice | main.go:206-210 | applying the same bytes again is a no-op, whatever the time |
| Feed.UpdateKeepsConsistent | main.go:206-210 | an update keeps the ETag matching the cached bytes |
| Feed.EmptyBuildKeepsEmptyValidators | main.go:45-48 | an empty first feed leaves the initial empty bytes, ETag and Last-Modified |
| Ingest.RefreshKeepsLastFile | main.go:163-191 | after a refresh, the post of an accepted file is the one filed under its ID, unless a later accepted file yields the same ID |
| Ingest.Refresh | main.go:159-211 | the refresh panics exactly when some file does; otherwise the index is coherent, its map is the listing-order map of the accepted posts (a later post wins over an earlier one with its ID), the list has one post per accepted file and exactly the posts the files yield, and the feed is built from its ten newest posts (`Ingest.RefreshKeepsLastFile` names which file's post each ID keeps); the feed cache is unchanged when its bytes are, and otherwise gets the ETag of the new bytes and the given HTTP date as Last-Modified |
| Ingest.RefreshIdempotent | main.go:159-211 | a second refresh over the same files and clock returns the same store, index and feed validators included |
| Ingest.RefreshKeepsFeedConsistent | main.go:206-210 | a refresh keeps the feed's ETag matching its bytes |
| Ingest.BuildFeed | main.go:198-204 | the feed bytes are the minifier's output on the template run over the given posts, with the template's `now` being the clock's instant in UTC |
| Ingest.BuildFeedIgnoresClockZone | main.go:198-204 | two clocks showing the same instant in different zones build the same feed |
| Ingest.AcceptedKeepsFileId | main.go:172-176 | without an `ID` key in front matter, an accepted post carries its file's ID |
| Ingest.AcceptedIdsDiffer | main.go:160-176 | without `ID` keys, two accepted files of a listing give posts with different IDs |
| Ingest.CollectedIds | main.go:163-184 | without `ID` keys, the collected posts have distinct IDs |
| Ingest.IndexSizes | main.go:182-191 | N accepted files give a list of N posts, and without `ID` keys a map of N entries |
| Ingest.SkippedFileNotIndexed | main.go:165-178 | without `ID` keys, a skipped file's ID is neither a key of the map nor the ID of a listed post |
| Ingest.FeedFromNewest | main.go:193-201 | the feed bytes are built from the first `min(10, n)` listed posts, and no post left out is newer than one kept |
| ErrorPages.ErrorStatus | main.go:266-268 | the page's status is at least 400; a status of 400 or more is kept and a lower one becomes 500 |
| ErrorPages.ErrorMessage | main.go:270-273 | the generic message is shown exactly when the status is 500 and debug mode is off; otherwise the error's text |
| ErrorPages.HandleError | main.go:261-288 | a written response is left alone; otherwise it is written with the error status and the page; a GET or HEAD loses exactly the headers named Cache-Control, ETag or Last-Modified in any letter case, and every other header keeps its values |
| ErrorPages.MixedCaseValidatorsCleared | main.go:275-279 | a GET error response with headers `ETag` and `Content-Type` keeps only `Content-Type` |
| ErrorPages.HandleErrorOnce | main.go:262-264 | a second error on the same response changes nothing |
| ErrorPages.ErrorPageShape | main.go:266-273 | the page's code is at least 400, and the error's text is hidden only on status 500 outside debug mode |
| ErrorPages.NotFound | main.go:290-293 | the not-found handler sets status 404 and returns the error "Not Found" |
| ErrorPages.MethodNotAllowed | main.go:295-298 | the method-not-allowed handler sets status 405 and returns "Method Not Allowed" |
| ErrorPages.NotFoundPage | main.go:290-293 | a not-found answer renders a 404 page saying "Not Found", in debug mode or not |
| ErrorPages.MethodNotAllowedPage | main.go:295-298 | a disallowed method renders a 405 page saying "Method Not Allowed" |
| Server.Do | main.go:219 | the refresh runs exactly when the gate is open; when it runs, the pass panics exactly when the refresh does, and otherwise stores what the refresh built; afterwards the gate is closed, a panicking refresh keeps the stored index and feed, and a coherent index stays coherent |
| Server.FileEvent | main.go:70 | a file event reopens the gate and keeps what is stored |
| Server.DoTwiceRunsOnce | main.go:219 | two passes with no file event between them run the refresh once, and the second changes nothing |
| Server.EventReopensGate | main.go:62-70 | after a file event the next pass runs the refresh |
| Server.RefreshRunsBounded | main.go:59-80 | over any sequence of requests and file events, the refresh runs at most once per event, plus once if the gate starts open |
| Server.ServePosts | main.go:218-225 | the handler leaves the server as the gate left it, lists that state's newest-first list, and fails exactly when the refresh panicked |
| Server.ServePostsLinksResolve | main.go:218-232 | when the stored index is coherent, the posts page lists newest first and every post it lists is found by the post page's lookup |
| Server.ServePost | main.go:227-241 | the handler leaves the server as the gate left it; a post is found exactly when its ID is a key of that state's map; in a coherent index it has that ID and is listed; an unknown ID gets exactly the reply of the not-found handler: status 404 and "Not Found" |
| Server.StartIsSound | main.go:40-49 | the start state's empty index is coherent and its empty feed consistent |
| Server.DoKeepsSound | main.go:190-210 | passing the gate keeps the index coherent and the feed's ETag matching its bytes |
| Server.ServeFeed | main.go:250-259 | the handler leaves the server as the gate left it, sets exactly the four headers of lines 253-256 with that state's ETag and Last-Modified, and writes that state's feed bytes |
| Server.FeedETagMatchesBody | main.go:250-259 | the ETag served matches the bytes served, unless no feed was ever stored and both are empty |

## Left out

- The file watcher goroutine and its logging (main.go:52-80) involve I/O and concurrency. Only its effect, reopening the gate, is modelled (`Server.FileEvent`).
- The thread safety of `sync.Once` and the racy replacement of the gate are left out. The gate is a sequential flag, and requests are taken one at a time.
- `filepath.Glob` and `ioutil.ReadFile` are left out. The listing and the files' bytes come in as a sequence of (name, bytes) pairs, and a file that cannot be read has empty bytes. That the names match `posts/*.md` and are distinct is a precondition where it matters.
- The TOML decoder is a parameter: a partial function from metadata bytes to the optional fields it sets. A missing `Datetime` leaves Go's zero time.
- Markdown rendering, the feed template with its helpers, and the XML minifier are parameters, because they are library code.
- MD5 is a parameter returning 16 bytes. Its `%x` formatting is modelled.
- `time.Now().UTC().Format(http.TimeFormat)` and the template's current time are parameters.
- Routing, middleware, page rendering, static files, TLS and signal handling are HTTP plumbing and are left out. The posts and post handlers return what they would render. The error handler's rendering is assumed to succeed and to write the response.
- Response headers are a map from name to values. Go keeps each name in one canonical spelling, and the model does not canonicalise names. It matches the three validators without regard to case instead, so a header with any spelling of these names is cleared.
- A panic inside the refresh is modelled as an outcome. The recovery middleware that turns it into an error page is left out.
- Bytes.Count: the count is pinned only at the two thresholds line 165 tests, 0 and at least 2. Its exact value, the number of non-overlapping markers taken greedily from the left, is not stated.
- Ordering.SortNewestFirst: the model fixes one order for posts with equal times. The contract promises only what every order `sort.Slice` may produce has: the same posts, newest first.
- Ingest.Refresh: states the list's length and its members rather than its multiset of posts. The two differ only when two files yield identical posts.
- Names and IDs are slices of `string` taken at fixed character positions, which match Go's byte positions for ASCII names only.

## Findings

| source | as written | input that shows it | evidently intended | confidence | as-written member | corrected member |
|---|---|---|---|---|---|---|
| main.go:170 | `j := bytes.Index(b[i+3:], sep) + 3` is an offset into `b[i+3:]`, but it is then used as a position in `b` | `xxxx+++a+++` gives the metadata slice `b[7:4]` and a runtime panic; `\n+++\nT\n+++\nbody` gives metadata `\nT` and body `+\nbody` | `j := i + 3 + bytes.Index(b[i+3:], sep)`, the second marker's position in `b` | not executed | FrontMatter.Split (with FrontMatter.LeadingBytesPanic, FrontMatter.LeadingNewlineMisplacesSplit, FrontMatter.SplitPanicsWhenShifted, FrontMatter.SplitMetaShifted, FrontMatter.SplitBodyShifted) | FrontMatter.SplitIntended (with FrontMatter.SplitIntendedRoundTrip, FrontMatter.IntendedMetaUnmarked, FrontMatter.SplitAgreesOnLeadingMarker) |

The ingestion pipeline (`Posts.ParseFile` and everything built on it) keeps
the split as written, because that is what the server does.
`FrontMatter.SplitAgreesOnLeadingMarker` shows the two splits are equal on
every file that starts with `+++`, which is the format the blog's posts use.
Every property the model proves about accepted posts therefore holds for
both splits on such files.

=== FILE: bytes.dfy ===
/** Byte strings and the two searches the post parser runs over them:
    `bytes.Index` and `bytes.Count`, both with the front-matter marker
    `+++` as the separator (the only separator the blog ever passes). */
module Bytes {

  newtype byte = x: int | 0 <= x < 256

  /** The byte value of '+'. */
  const Plus: byte := 0x2B

  /** The front-matter delimiter `+++`. */
  const Marker: seq<byte> := [Plus, Plus, Plus]

  /** A marker begins at position `p` of `b`. */
  predicate MarkerAt(b: seq<byte>, p: int) {
    0 <= p && p + 3 <= |b| && b[p] == Plus && b[p + 1] == Plus && b[p + 2] == Plus
  }

  /** Some marker begins in `b`. */
  predicate HasMarker(b: seq<byte>) {
    exists p | 0 <= p < |b| :: MarkerAt(b, p)
  }

  /** The first marker that begins at or after `from`, or -1 when there is
      none (`IndexFromFirst` states that it is the first). */
  function IndexFrom(b: seq<byte>, from: nat): (r: int)
    requires from <= |b|
    ensures r == -1 || (from <= r && MarkerAt(b, r))
    decreases |b| - from
  {
    if from + 3 > |b| then -1
    else if MarkerAt(b, from) then from
    else IndexFrom(b, from + 1)
  }

  /** No marker at or after `from` is missed: any of them lies at or after
      the one `IndexFrom` reports. */
  lemma {:induction false} IndexFromFirst(b: seq<byte>, from: nat, p: int)
    requires from <= |b| && from <= p && MarkerAt(b, p)
    ensures 0 <= IndexFrom(b, from) <= p
    decreases |b| - from
  {
    if !MarkerAt(b, from) {
      IndexFromFirst(b, from + 1, p);
    }
  }

  /** `bytes.Index(b, []byte("+++"))`: where the first marker of `b` begins,
      or -1 when `b` holds none. */
  function Index(b: seq<byte>): (r: int)
    ensures r == -1 || MarkerAt(b, r)
  {
    IndexFrom(b, 0)
  }

  /** Every marker of `b` begins at or after the one `Index` reports. */
  lemma IndexFirst(b: seq<byte>, p: int)
    requires MarkerAt(b, p)
    ensures 0 <= Index(b) <= p
  {
    IndexFromFirst(b, 0, p);
  }

  /** `Index` reports -1 exactly when there is no marker at all. */
  lemma IndexNone(b: seq<byte>)
    ensures Index(b) == -1 <==> !HasMarker(b)
  {
    if HasMarker(b) {
      var p :| 0 <= p < |b| && MarkerAt(b, p);
      IndexFirst(b, p);
    }
  }

  /** The first marker is unique: a marker with none before it is the one `Index` finds. */
  lemma IndexIsFirst(b: seq<byte>, p: int)
    requires MarkerAt(b, p)
    requires forall q :: 0 <= q < p ==> !MarkerAt(b, q)
    ensures Index(b) == p
  {
    IndexFirst(b, p);
  }

  /** A marker begins at `p` of a suffix exactly when it begins at `s + p` of the whole. */
  lemma MarkerInSuffix(b: seq<byte>, s: nat, p: nat)
    requires s <= |b|
    ensures MarkerAt(b[s..], p) <==> MarkerAt(b, s + p)
  {
  }

  /** Searching the suffix `b[s..]` finds the first marker of `b` at or after `s`,
      shifted to the suffix's coordinates. */
  lemma IndexOfSuffix(b: seq<byte>, s: nat)
    requires s <= |b|
    ensures Index(b[s..]) == (if IndexFrom(b, s) == -1 then -1 else IndexFrom(b, s) - s)
  {
    var t := b[s..];
    var r := IndexFrom(b, s);
    var q := Index(t);
    if q >= 0 {
      MarkerInSuffix(b, s, q);
      IndexFromFirst(b, s, s + q);
    }
    if r >= 0 {
      MarkerInSuffix(b, s, r - s);
      IndexFirst(t, r - s);
    }
  }

  /** `bytes.Count(b, []byte("+++"))`: the number of non-overlapping markers,
      counted greedily from the left, each search resuming after the
      marker just found. */
  function Count(b: seq<byte>): (n: nat)
    ensures n == 0 ==> Index(b) == -1
    decreases |b|
  {
    var i := Index(b);
    if i == -1 then 0 else 1 + Count(b[i + 3..])
  }

  /** No marker is counted exactly when there is none. */
  lemma CountNone(b: seq<byte>)
    ensures Count(b) == 0 <==> !HasMarker(b)
  {
    IndexNone(b);
  }

  /** At least two non-overlapping markers exactly when two markers occur,
      the second beginning after the first has ended. */
  lemma {:induction false} CountAtLeastTwo(b: seq<byte>)
    ensures Count(b) >= 2 <==> exists p, q :: MarkerAt(b, p) && MarkerAt(b, q) && p + 3 <= q
  {
    var i := Index(b);
    if i == -1 {
      if exists p, q :: MarkerAt(b, p) && MarkerAt(b, q) && p + 3 <= q {
        var p, q :| MarkerAt(b, p) && MarkerAt(b, q) && p + 3 <= q;
        IndexFirst(b, p);
        assert false;
      }
    } else {
      var t := b[i + 3..];
      assert Count(b) == 1 + Count(t);
      if Count(b) >= 2 {
        var k := Index(t);
        MarkerInSuffix(b, i + 3, k);
        assert MarkerAt(b, i) && MarkerAt(b, i + 3 + k);
      }
      if exists p, q :: MarkerAt(b, p) && MarkerAt(b, q) && p + 3 <= q {
        var p, q :| MarkerAt(b, p) && MarkerAt(b, q) && p + 3 <= q;
        IndexFirst(b, p);
        MarkerInSuffix(b, i + 3, q - i - 3);
        IndexFirst(t, q - i - 3);
        assert Count(t) >= 1;
      }
    }
  }

  /** When there are at least two markers, the source's second search, in the
      bytes after the first marker, finds one; so `j`, its result plus 3, is
      at least 3 and the marker it names lies inside `b`. */
  lemma SecondSearchFinds(b: seq<byte>)
    requires Count(b) >= 2
    ensures Index(b) >= 0
    ensures Index(b[Index(b) + 3..]) >= 0
    ensures Index(b[Index(b) + 3..]) + 3 >= 3
    ensures MarkerAt(b, Index(b) + 3 + Index(b[Index(b) + 3..]))
  {
    var i := Index(b);
    var k := Index(b[i + 3..]);
    MarkerInSuffix(b, i + 3, k);
  }
}

=== FILE: error_pages.dfy ===
/** How a failed request is answered (main.go, lines 261-298): the error
    handler picks the status and the message of the error page, and the
    not-found and method-not-allowed handlers supply their status and error. */
module ErrorPages {
  import opened Optional

  /** What the error page shows: its title, the numeric code and the message. */
  datatype ErrorPage = ErrorPage(title: int, code: int, message: string)

  /** The parts of a response the error handler reads or changes. Rendering
      the page writes the response. */
  datatype Response = Response(
    written: bool,
    status: int,
    headers: map<string, seq<string>>,
    page: Option<ErrorPage>)

  /** A handler's error: its text. */
  datatype HandlerError = HandlerError(text: string)

  const GenericMessage: string := "Internal Server Error"

  /** The validators cleared from the error response of a GET or HEAD, in
      lower case. */
  const CacheHeaders: set<string> := {"cache-control", "etag", "last-modified"}

  /** One character in ASCII lower case. */
  function LowerChar(c: char): char {
    if 'A' <= c <= 'Z' then (c as int + 32) as char else c
  }

  /** A header name in ASCII lower case. HTTP header names are matched
      without regard to case, so `ETag` and `etag` name the same header. */
  function Lower(name: string): (r: string)
    ensures |r| == |name|
    ensures forall k :: 0 <= k < |name| ==> r[k] == LowerChar(name[k])
  {
    seq(|name|, k requires 0 <= k < |name| => LowerChar(name[k]))
  }

  /** The headers without the validators, whatever the case of their names. */
  function WithoutCacheHeaders(h: map<string, seq<string>>): map<string, seq<string>> {
    map k | k in h && Lower(k) !in CacheHeaders :: h[k]
  }

  /** The status the error page reports: a status below 400 becomes 500. */
  function ErrorStatus(status: int): (s: int)
    ensures s >= 400
    ensures status >= 400 ==> s == status
    ensures status < 400 ==> s == 500
  {
    if status < 400 then 500 else status
  }

  /** The message the error page shows: the generic text exactly when the
      status is 500 and debug mode is off (other 5xx statuses keep the error's
      text), otherwise the error's text. */
  function ErrorMessage(status: int, err: HandlerError, debug: bool): (m: string)
    ensures status == 500 && !debug ==> m == GenericMessage
    ensures status != 500 || debug ==> m == err.text
  {
    if status == 500 && !debug then GenericMessage else err.text
  }

  /** `errorHandler`: a response already written is left alone; otherwise the
      status is raised to an error status, a GET or HEAD loses its caching
      headers, and the error page is rendered with the status as title and
      code and the chosen message. */
  function HandleError(err: HandlerError, verb: string, debug: bool, res: Response): (r: Response)
    ensures res.written ==> r == res
    ensures !res.written ==> r.written && r.status == ErrorStatus(res.status)
    ensures !res.written ==> r.page == Some(ErrorPage(r.status, r.status, ErrorMessage(r.status, err, debug)))
    ensures !res.written && (verb == "GET" || verb == "HEAD") ==>
              forall k :: k in r.headers <==> k in res.headers && Lower(k) !in CacheHeaders
    ensures forall k :: k in r.headers ==> k in res.headers && r.headers[k] == res.headers[k]
    ensures !res.written && verb != "GET" && verb != "HEAD" ==> r.headers == res.headers
  {
    if res.written then res
    else
      var status := ErrorStatus(res.status);
      var headers := if verb == "GET" || verb == "HEAD" then WithoutCacheHeaders(res.headers) else res.headers;
      Response(true, status, headers, Some(ErrorPage(status, status, ErrorMessage(status, err, debug))))
  }

  /** A GET whose response carries `ETag` and `Content-Type`, spelled with
      capitals, loses the ETag and keeps the content type. */
  lemma MixedCaseValidatorsCleared()
    ensures HandleError(HandlerError("boom"), "GET", false,
                        Response(false, 200, map["ETag" := ["\"0\""], "Content-Type" := ["text/html"]], None)).headers
              == map["Content-Type" := ["text/html"]]
  {
    var h: map<string, seq<string>> := map["ETag" := ["\"0\""], "Content-Type" := ["text/html"]];
    var e := Lower("ETag");
    assert e[0] == 'e' && e[1] == 't' && e[2] == 'a' && e[3] == 'g';
    assert e == "etag";
    var c := Lower("Content-Type");
    assert |c| == 12;
    assert c != "cache-control" && c != "etag" && c != "last-modified";
    var w := WithoutCacheHeaders(h);
    assert "ETag" !in w;
    assert "Content-Type" in w && w["Content-Type"] == ["text/html"];
    assert w.Keys == {"Content-Type"};
    assert w == map["Content-Type" := ["text/html"]];
  }

  /** Handling a second error on the same response changes nothing: the first
      error's page stands. */
  lemma HandleErrorOnce(e1: HandlerError, e2: HandlerError, verb: string, debug: bool, res: Response)
    ensures HandleError(e2, verb, debug, HandleError(e1, verb, debug, res)) == HandleError(e1, verb, debug, res)
  {
  }

  /** The error page never reports a status below 400, and the generic message
      hides an error's text only on status 500 outside debug mode. */
  lemma ErrorPageShape(err: HandlerError, verb: string, debug: bool, res: Response)
    requires !res.written
    ensures HandleError(err, verb, debug, res).page.value.code >= 400
    ensures HandleError(err, verb, debug, res).page.value.message != err.text ==>
              HandleError(err, verb, debug, res).status == 500 && !debug
  {
  }

  /** `notFoundHandler`: status 404 and the error "Not Found". */
  function NotFound(res: Response): (out: (Response, HandlerError))
    ensures out.0 == res.(status := 404) && out.1.text == "Not Found"
  {
    (res.(status := 404), HandlerError("Not Found"))
  }

  /** `methodNotAllowedHandler`: status 405 and the error "Method Not Allowed". */
  function MethodNotAllowed(res: Response): (out: (Response, HandlerError))
    ensures out.0 == res.(status := 405) && out.1.text == "Method Not Allowed"
  {
    (res.(status := 405), HandlerError("Method Not Allowed"))
  }

  /** A not-found answer, passed to the error handler, renders a 404 page
      saying "Not Found", in debug mode or not. */
  lemma NotFoundPage(verb: string, debug: bool, res: Response)
    requires !res.written
    ensures var (res', err) := NotFound(res);
            HandleError(err, verb, debug, res').page == Some(ErrorPage(404, 404, "Not Found"))
  {
  }

  /** A disallowed method renders a 405 page saying "Method Not Allowed". */
  lemma MethodNotAllowedPage(verb: string, debug: bool, res: Response)
    requires !res.written
    ensures var (res', err) := MethodNotAllowed(res);
            HandleError(err, verb, debug, res').page == Some(ErrorPage(405, 405, "Method Not Allowed"))
  {
  }
}

=== FILE: feed.dfy ===
/** The cached Atom feed (main.go, lines 193-210): built from the ten newest
    posts, and stored together with its ETag and Last-Modified value, which
    change only when the feed's bytes do. */
module Feed {
  import opened Bytes
  import opened Posts
  import opened Ordering

  /** The most posts the feed carries. */
  const FeedCap: nat := 10

  /** An MD5 sum: sixteen bytes. */
  type Digest = d: seq<byte> | |d| == 16 witness [0, 0, 0, 0, 0, 0, 0, 0, 0, 0, 0, 0, 0, 0, 0, 0]

  /** Lines 193-196: the first `min(10, n)` posts of the newest-first list. */
  function Latest(ordered: seq<Post>): (r: seq<Post>)
    ensures |r| == if |ordered| < FeedCap then |ordered| else FeedCap
    ensures r == ordered[..|r|]
  {
    if |ordered| > FeedCap then ordered[..FeedCap] else ordered
  }

  /** Taken from a newest-first list, the feed's posts are the newest: none
      of the posts left out is newer than any post kept. */
  lemma LatestAreNewest(ordered: seq<Post>)
    requires NewestFirst(ordered)
    ensures forall p, q :: p in Latest(ordered) && q in ordered[|Latest(ordered)|..] ==>
              p.datetime.instant >= q.datetime.instant
  {
    var n := |Latest(ordered)|;
    forall p, q | p in Latest(ordered) && q in ordered[n..]
      ensures p.datetime.instant >= q.datetime.instant
    {
      var i :| 0 <= i < n && ordered[i] == p;
      var j :| 0 <= j < |ordered| - n && ordered[n..][j] == q;
      assert ordered[n + j] == q;
    }
  }

  /** With fifteen posts the feed holds exactly the first ten. */
  lemma FifteenPostsGiveTen(ordered: seq<Post>)
    requires |ordered| == 15
    ensures |Latest(ordered)| == 10
    ensures Latest(ordered) == ordered[..10]
  {
  }

  const HexDigits: string := "0123456789abcdef"

  /** A lower-case hexadecimal digit. */
  predicate IsHexDigit(c: char) {
    '0' <= c <= '9' || 'a' <= c <= 'f'
  }

  /** The value of a lower-case hexadecimal digit. */
  function DigitValue(c: char): (v: nat)
    requires IsHexDigit(c)
    ensures v < 16 && HexDigits[v] == c
  {
    if c <= '9' then c as int - '0' as int else c as int - 'a' as int + 10
  }

  /** The two digits of one byte, high nibble first. */
  function ByteDigits(x: byte): (s: string)
    ensures |s| == 2 && IsHexDigit(s[0]) && IsHexDigit(s[1])
  {
    DigitValueOfDigit(x as int / 16);
    DigitValueOfDigit(x as int % 16);
    [HexDigits[x as int / 16], HexDigits[x as int % 16]]
  }

  /** The byte two digits stand for. */
  function DigitsValue(hi: char, lo: char): byte
    requires IsHexDigit(hi) && IsHexDigit(lo)
  {
    (DigitValue(hi) * 16 + DigitValue(lo)) as byte
  }

  /** One byte survives being written as two digits and read back. */
  lemma ByteDigitsRoundTrip(x: byte)
    ensures DigitsValue(ByteDigits(x)[0], ByteDigits(x)[1]) == x
  {
    Nibbles(x);
    DigitValueOfDigit(x as int / 16);
    DigitValueOfDigit(x as int % 16);
  }

  /** Hexadecimal text: pairs of lower-case hexadecimal digits. */
  predicate IsHexText(s: string) {
    |s| % 2 == 0 && forall k :: 0 <= k < |s| ==> IsHexDigit(s[k])
  }

  /** `%x` of a byte array: two lower-case hexadecimal digits per byte, high nibble first. */
  function Hex(d: seq<byte>): (s: string)
    ensures |s| == 2 * |d|
    ensures IsHexText(s)
  {
    if d == [] then "" else ByteDigits(d[0]) + Hex(d[1..])
  }

  /** Reads back a string of hexadecimal digit pairs. */
  function Unhex(s: string): (d: seq<byte>)
    requires IsHexText(s)
    ensures |d| * 2 == |s|
  {
    if s == [] then [] else
      assert IsHexText(s[2..]) by {
        assert forall k :: 0 <= k < |s| - 2 ==> s[2..][k] == s[k + 2];
      }
      [DigitsValue(s[0], s[1])] + Unhex(s[2..])
  }

  /** A digit's value names the digit back. */
  lemma DigitValueOfDigit(v: nat)
    requires v < 16
    ensures IsHexDigit(HexDigits[v]) && DigitValue(HexDigits[v]) == v
  {
    assert HexDigits == ['0', '1', '2', '3', '4', '5', '6', '7', '8', '9', 'a', 'b', 'c', 'd', 'e', 'f'];
  }

  /** A byte is its high nibble times sixteen plus its low nibble. */
  lemma Nibbles(x: byte)
    ensures 0 <= x as int / 16 < 16 && 0 <= x as int % 16 < 16
    ensures (x as int / 16) * 16 + x as int % 16 == x as int
  {
  }

  /** Hex encoding loses nothing: reading the digits back gives the bytes. */
  lemma {:induction false} HexRoundTrip(d: seq<byte>)
    ensures Unhex(Hex(d)) == d
  {
    if d != [] {
      var s := Hex(d);
      var pair := ByteDigits(d[0]);
      assert s == pair + Hex(d[1..]);
      assert s[0] == pair[0] && s[1] == pair[1] && s[2..] == Hex(d[1..]);
      ByteDigitsRoundTrip(d[0]);
      HexRoundTrip(d[1..]);
      assert Unhex(s) == [d[0]] + d[1..];
    }
  }

  /** Line 208: the ETag is the feed's MD5 sum as hexadecimal, in double quotes.
      It is 34 characters long and the digest can be read back from it. */
  function ETag(d: Digest): (t: string)
    ensures |t| == 34
    ensures t[0] == '"' && t[33] == '"'
    ensures IsHexText(t[1..33]) && Unhex(t[1..33]) == d
  {
    HexRoundTrip(d);
    var t := "\"" + Hex(d) + "\"";
    assert t[1..33] == Hex(d);
    t
  }

  /** The cached feed: its bytes, their ETag and when they last changed. */
  datatype FeedCache = FeedCache(bytes: seq<byte>, etag: string, lastModified: string)

  /** Before the first refresh: a nil byte slice and empty strings. */
  const EmptyFeed: FeedCache := FeedCache([], "", "")

  /** Lines 206-210: a newly built feed replaces the cache only when its bytes
      differ from the cached ones; then the ETag is recomputed from the new
      bytes and Last-Modified set to the time given. Either way the cache
      ends up holding the new bytes, and a cache whose validators changed has
      new bytes. */
  function UpdateFeed(c: FeedCache, b: seq<byte>, md5: seq<byte> -> Digest, now: string): (r: FeedCache)
    ensures r.bytes == b
    ensures r != c ==> b != c.bytes
    ensures b != c.bytes ==> r.etag == ETag(md5(b)) && r.lastModified == now
  {
    if b != c.bytes then FeedCache(b, ETag(md5(b)), now) else c
  }

  /** Building the same bytes again leaves the cache as it is, whatever the time. */
  lemma UpdateFeedTwice(c: FeedCache, b: seq<byte>, md5: seq<byte> -> Digest, now1: string, now2: string)
    ensures UpdateFeed(UpdateFeed(c, b, md5, now1), b, md5, now2) == UpdateFeed(c, b, md5, now1)
  {
  }

  /** The cache's validators describe its bytes: the ETag is that of their MD5
      sum, unless nothing was ever stored (empty bytes, empty validators). */
  predicate Consistent(c: FeedCache, md5: seq<byte> -> Digest) {
    c == EmptyFeed || c.etag == ETag(md5(c.bytes))
  }

  /** Updating keeps the cache consistent. */
  lemma UpdateKeepsConsistent(c: FeedCache, b: seq<byte>, md5: seq<byte> -> Digest, now: string)
    requires Consistent(c, md5)
    ensures Consistent(UpdateFeed(c, b, md5, now), md5)
  {
  }

  /** An empty first build does not touch the empty cache: the feed is then
      served with empty ETag and Last-Modified values. */
  lemma EmptyBuildKeepsEmptyValidators(md5: seq<byte> -> Digest, now: string)
    ensures UpdateFeed(EmptyFeed, [], md5, now) == EmptyFeed
  {
  }
}

=== FILE: front_matter.dfy ===
/** Front-matter splitting (main.go, lines 165-176): a post file is a
    `+++`-delimited metadata block followed by a Markdown body. The split
    is modelled exactly as the Go code computes it, including the offset
    arithmetic that is only right when the file begins with the marker,
    next to the split the code evidently intends. */
module FrontMatter {
  import opened Bytes

  /** What the parser makes of one file's bytes. */
  datatype Sections =
    | Unmarked                                  // fewer than two markers: the file is skipped
    | SlicePanic                                // `b[i+3:j]` with `i+3 > j`: the Go runtime panics
    | Parts(meta: seq<byte>, body: seq<byte>)   // the metadata span and the Markdown body

  /** The file begins with the marker. */
  predicate StartsWithMarker(b: seq<byte>) {
    MarkerAt(b, 0)
  }

  /** The second search of lines 169-170, `bytes.Index(b[i+3:], delim)`:
      where the next marker begins, counted from the end of the first. Two
      markers guarantee it finds one. */
  function Gap(b: seq<byte>): (k: nat)
    requires Count(b) >= 2
    ensures Index(b) >= 0 && Index(b) + k + 6 <= |b|
    ensures MarkerAt(b, Index(b) + 3 + k)
  {
    SecondSearchFinds(b);
    Index(b[Index(b) + 3..])
  }

  /** No marker begins between the end of the first marker and the one the
      second search finds. */
  lemma NoMarkerBeforeSecond(b: seq<byte>, p: int)
    requires Count(b) >= 2
    requires Index(b) + 3 <= p < Index(b) + 3 + Gap(b)
    ensures !MarkerAt(b, p)
  {
    var i := Index(b);
    if MarkerAt(b, p) {
      MarkerInSuffix(b, i + 3, p - i - 3);
      IndexFirst(b[i + 3..], p - i - 3);
    }
  }

  /** Lines 165-176 as written: `i` is the first marker, `j` is the index of the
      next marker RELATIVE to `b[i+3:]`, plus 3; the metadata is `b[i+3:j]` and
      the body `b[j+3:]`. */
  function Split(b: seq<byte>): (r: Sections)
    ensures r.Unmarked? <==> Count(b) < 2
    ensures r.Parts? ==> |r.meta| + |r.body| + Index(b) + 6 == |b|
  {
    if Count(b) < 2 then Unmarked
    else
      var i := Index(b);
      var j := Gap(b) + 3;
      if i + 3 > j then SlicePanic
      else Parts(b[i + 3..j], b[j + 3..])
  }

  /** `meta` and `body` sit in `b` between a marker at `i` and a marker
      right after `meta`, and after that second marker. */
  predicate Framed(b: seq<byte>, i: int, meta: seq<byte>, body: seq<byte>) {
    && 0 <= i
    && i + 6 + |meta| <= |b|
    && MarkerAt(b, i)
    && MarkerAt(b, i + 3 + |meta|)
    && meta == b[i + 3..i + 3 + |meta|]
    && body == b[i + 3 + |meta| + 3..]
  }

  /** The split the code evidently intends: the second marker's position is
      taken in `b`'s own coordinates, `i + 3 + Index(b[i+3:])`. It never
      panics; its metadata begins after the first marker and ends where the
      next marker begins, and its body is what follows that marker
      (`IntendedMetaUnmarked` adds that no marker begins inside the metadata). */
  function SplitIntended(b: seq<byte>): (r: Sections)
    ensures !r.SlicePanic?
    ensures r.Unmarked? <==> Count(b) < 2
    ensures r.Parts? ==> Framed(b, Index(b), r.meta, r.body)
  {
    if Count(b) < 2 then Unmarked
    else
      var i := Index(b);
      var j := i + 3 + Gap(b);
      Parts(b[i + 3..j], b[j + 3..])
  }

  /** No marker begins inside the intended metadata. */
  lemma IntendedMetaUnmarked(b: seq<byte>, p: int)
    requires Count(b) >= 2
    requires Index(b) + 3 <= p < Index(b) + 3 + |SplitIntended(b).meta|
    ensures !MarkerAt(b, p)
  {
    NoMarkerBeforeSecond(b, p);
  }

  /** Whatever precedes the first marker, the marker, the metadata, the second
      marker and the body of the intended split put back together give the file. */
  lemma SplitIntendedRoundTrip(b: seq<byte>)
    requires Count(b) >= 2
    ensures SplitIntended(b).Parts?
    ensures b == b[..Index(b)] + Marker + SplitIntended(b).meta + Marker + SplitIntended(b).body
  {
    Reassemble(b, Index(b), SplitIntended(b).meta, SplitIntended(b).body);
  }

  /** A byte string that frames `meta` and `body` is the concatenation of
      what precedes the first marker, the marker, `meta`, the marker and
      `body`. */
  lemma Reassemble(b: seq<byte>, i: int, meta: seq<byte>, body: seq<byte>)
    requires Framed(b, i, meta, body)
    ensures b == b[..i] + Marker + meta + Marker + body
  {
    var j := i + 3 + |meta|;
    var tail := b[j..];
    assert tail == Marker + b[j + 3..] by {
      assert b[j..j + 3] == Marker;
      assert tail == b[j..j + 3] + b[j + 3..];
    }
    var mid := b[i..];
    assert mid == Marker + b[i + 3..j] + tail by {
      assert b[i..i + 3] == Marker;
      assert mid == b[i..i + 3] + b[i + 3..j] + b[j..];
    }
    assert b == b[..i] + mid;
  }

  /** The two splits coincide on every file that begins with the marker. */
  lemma SplitAgreesOnLeadingMarker(b: seq<byte>)
    requires StartsWithMarker(b)
    ensures Split(b) == SplitIntended(b)
  {
    IndexFirst(b, 0);
  }

  /** For a file that begins with `+++` and has a second marker, the code as
      written gets the split right: the metadata is exactly the bytes strictly
      between the two markers (no marker begins inside it), the body is
      everything after the second marker, and metadata, second marker and
      body put back together give `b[3:]`. */
  lemma SplitOfLeadingMarker(b: seq<byte>)
    requires StartsWithMarker(b)
    requires Count(b) >= 2
    ensures Split(b).Parts?
    ensures Split(b).meta + Marker + Split(b).body == b[3..]
    ensures MarkerAt(b, 3 + |Split(b).meta|)
    ensures forall p :: 3 <= p < 3 + |Split(b).meta| ==> !MarkerAt(b, p)
  {
    IndexFirst(b, 0);
    SplitAgreesOnLeadingMarker(b);
    SplitIntendedRoundTrip(b);
    var r := SplitIntended(b);
    assert b == [] + Marker + r.meta + Marker + r.body;
    assert b[3..] == r.meta + Marker + r.body;
    forall p | 3 <= p < 3 + |r.meta| ensures !MarkerAt(b, p) {
      IntendedMetaUnmarked(b, p);
    }
  }

  /** In general the code as written is off by the first marker's position
      `i`: it panics exactly when `i` exceeds the length of the real metadata
      span. */
  lemma SplitPanicsWhenShifted(b: seq<byte>)
    requires Count(b) >= 2
    ensures SplitIntended(b).Parts? && Index(b) >= 0
    ensures Split(b).SlicePanic? <==> Index(b) > |SplitIntended(b).meta|
  {
  }

  /** When it does not panic, the code as written drops the last `i` bytes of
      the metadata, `i` being the first marker's position. */
  lemma SplitMetaShifted(b: seq<byte>)
    requires Count(b) >= 2
    requires Split(b).Parts?
    ensures SplitIntended(b).Parts? && Index(b) >= 0
    ensures Split(b).meta == SplitIntended(b).meta[..|SplitIntended(b).meta| - Index(b)]
  {
    assert Split(b).meta == b[Index(b) + 3..Gap(b) + 3];
    assert SplitIntended(b).meta == b[Index(b) + 3..Index(b) + 3 + Gap(b)];
  }

  /** ... and starts the body `i` bytes early. */
  lemma SplitBodyShifted(b: seq<byte>)
    requires Count(b) >= 2
    requires Split(b).Parts?
    ensures SplitIntended(b).Parts? && Index(b) >= 0
    ensures |Split(b).body| == |SplitIntended(b).body| + Index(b)
    ensures Split(b).body[Index(b)..] == SplitIntended(b).body
  {
    assert Split(b).body == b[Gap(b) + 3 + 3..];
    assert SplitIntended(b).body == b[Index(b) + 3 + Gap(b) + 3..];
  }

  /** The eleven bytes `xxxx+++a+++`: four bytes precede the front matter. */
  const LeadingBytes: seq<byte> := [0x78, 0x78, 0x78, 0x78, Plus, Plus, Plus, 0x61, Plus, Plus, Plus]

  /** The code as written slices `b[7:4]` on `LeadingBytes`: the refresh
      panics, while the intended split finds the metadata `a` and an empty body. */
  lemma LeadingBytesPanic()
    ensures Split(LeadingBytes) == SlicePanic
    ensures SplitIntended(LeadingBytes) == Parts([0x61], [])
  {
    var b := LeadingBytes;
    assert MarkerAt(b, 4) && MarkerAt(b, 8);
    IndexIsFirst(b, 4);
    var t := b[7..];
    assert MarkerAt(t, 1);
    IndexIsFirst(t, 1);
    CountAtLeastTwo(b);
  }

  /** The fifteen bytes `\n+++\nT\n+++\nbody`: one newline precedes the front matter. */
  const LeadingNewline: seq<byte> :=
    [0x0A, Plus, Plus, Plus, 0x0A, 0x54, 0x0A, Plus, Plus, Plus, 0x0A, 0x62, 0x6F, 0x64, 0x79]

  /** On `LeadingNewline` the first marker is at 1 and the second search, in
      the bytes after it, finds the next one at 3 (position 7 of the file). */
  lemma LeadingNewlineMarkers()
    ensures Count(LeadingNewline) >= 2
    ensures Index(LeadingNewline) == 1
    ensures Index(LeadingNewline[4..]) == 3
  {
    var b := LeadingNewline;
    assert MarkerAt(b, 1) && MarkerAt(b, 7);
    IndexIsFirst(b, 1);
    var t := b[4..];
    assert MarkerAt(t, 3);
    IndexIsFirst(t, 3);
    CountAtLeastTwo(b);
  }

  /** On `LeadingNewline` the code as written does not panic but splits in the
      wrong places: the metadata `\nT` loses its last byte and the body
      `+\nbody` starts inside the second marker. */
  lemma LeadingNewlineMisplacesSplit()
    ensures Split(LeadingNewline) == Parts([0x0A, 0x54], [Plus, 0x0A, 0x62, 0x6F, 0x64, 0x79])
  {
    LeadingNewlineMarkers();
    var b := LeadingNewline;
    assert Split(b) == Parts(b[4..6], b[9..]);
  }

  /** On `LeadingNewline` the intended split gives the metadata `\nT\n` and the body `\nbody`. */
  lemma LeadingNewlineIntendedSplit()
    ensures SplitIntended(LeadingNewline) == Parts([0x0A, 0x54, 0x0A], [0x0A, 0x62, 0x6F, 0x64, 0x79])
  {
    LeadingNewlineMarkers();
    var b := LeadingNewline;
    assert SplitIntended(b) == Parts(b[4..7], b[10..]);
  }

  /** The eleven bytes `+++\nT\n+++\nb`: the front matter `\nT\n` between
      two markers at the very start, then the body `\nb`. */
  const WellFormed: seq<byte> := [Plus, Plus, Plus, 0x0A, 0x54, 0x0A, Plus, Plus, Plus, 0x0A, 0x62]

  /** On `WellFormed` the code as written splits where it should. */
  lemma WellFormedSplit()
    ensures Split(WellFormed) == Parts([0x0A, 0x54, 0x0A], [0x0A, 0x62])
  {
    var b := WellFormed;
    assert MarkerAt(b, 0) && MarkerAt(b, 6);
    IndexIsFirst(b, 0);
    var t := b[3..];
    assert MarkerAt(t, 3);
    IndexIsFirst(t, 3);
    CountAtLeastTwo(b);
    assert Split(b) == Parts(b[3..6], b[9..]);
  }
}

=== FILE: ingest.dfy ===
/** One run of the refresh, `parsePosts` (main.go, lines 159-211): rebuild
    the index from the listed files, then rebuild the feed from its ten
    newest posts and update the feed cache. */
module Ingest {
  import opened Optional
  import opened Bytes
  import opened FrontMatter
  import opened Posts
  import opened PostIndex
  import opened Feed

  /** Everything a refresh replaces. */
  datatype Store = Store(index: Views, feed: FeedCache)

  const InitialStore: Store := Store(EmptyIndex, EmptyFeed)

  /** The library code a refresh calls: the front-matter decoder and Markdown
      renderer, the feed template (given the posts and the template's current
      UTC time), the XML minifier and MD5. */
  datatype Env = Env(
    decoders: Decoders,
    template: (seq<Post>, Time) -> seq<byte>,
    minify: seq<byte> -> seq<byte>,
    md5: seq<byte> -> Digest)

  /** What a refresh reads from outside: the directory listing with each
      file's bytes, the clock as the template sees it, and the clock as an
      HTTP date for Last-Modified. */
  datatype World = World(files: seq<SourceFile>, clock: Time, httpDate: string)

  predicate ListedPaths(w: World) {
    forall k :: 0 <= k < |w.files| ==> IsPostPath(w.files[k].name)
  }

  datatype Outcome =
    | RefreshPanicked           // a file's metadata slice made the runtime panic; nothing is replaced
    | Refreshed(store: Store)

  /** Lines 198-204: the feed template run on the given posts, then minified.
      The template's `now` (lines 95-97) reads the clock in UTC. */
  function BuildFeed(latest: seq<Post>, w: World, env: Env): (r: seq<byte>)
    ensures r == env.minify(env.template(latest, Time(w.clock.instant, UTC)))
  {
    env.minify(env.template(latest, ToUTC(w.clock)))
  }

  /** The feed depends on the clock only through its instant: two clocks
      showing the same instant in different zones build the same feed. */
  lemma BuildFeedIgnoresClockZone(latest: seq<Post>, w1: World, w2: World, env: Env)
    requires w1.clock.instant == w2.clock.instant
    ensures BuildFeed(latest, w1, env) == BuildFeed(latest, w2, env)
  {
  }

  /** Lines 159-211. A panic abandons the run before anything is assigned.
      Otherwise the index is replaced by one built from exactly the accepted
      files, and the feed cache is updated with the feed of the newest ten. */
  function Refresh(st: Store, w: World, env: Env): (r: Outcome)
    requires ListedPaths(w)
    ensures r.RefreshPanicked? <==> SomePanics(w.files, env.decoders)
    ensures r.Refreshed? ==> Coherent(r.store.index)
    ensures r.Refreshed? ==>
              Collect(w.files, env.decoders).Some? && r.store.index.byId == MapOf(Collect(w.files, env.decoders).value)
    ensures r.Refreshed? ==> |r.store.index.ordered| == AcceptedCount(w.files, env.decoders)
    ensures r.Refreshed? ==> forall p :: p in r.store.index.ordered <==> AcceptedFrom(w.files, env.decoders, p)
    ensures r.Refreshed? ==> r.store.feed.bytes == BuildFeed(Latest(r.store.index.ordered), w, env)
    ensures r.Refreshed? && r.store.feed.bytes == st.feed.bytes ==> r.store.feed == st.feed
    ensures r.Refreshed? && r.store.feed.bytes != st.feed.bytes ==>
              r.store.feed.etag == ETag(env.md5(r.store.feed.bytes)) && r.store.feed.lastModified == w.httpDate
  {
    match Collect(w.files, env.decoders)
    case None => RefreshPanicked
    case Some(ps) =>
      assert forall p :: p in ps ==> p.datetime.zone == UTC by {
        forall p | p in ps ensures p.datetime.zone == UTC {
          var os := Outcomes(w.files, env.decoders);
          var k :| 0 <= k < |os| && os[k] == Accepted(p);
        }
      }
      var ix := BuildIndex(ps);
      assert forall p :: p in ix.ordered <==> p in ps by {
        forall p ensures p in ix.ordered <==> p in ps {
          assert p in ix.ordered <==> p in multiset(ix.ordered);
        }
      }
      var feed := UpdateFeed(st.feed, BuildFeed(Latest(ix.ordered), w, env), env.md5, w.httpDate);
      Refreshed(Store(ix, feed))
  }

  /** The index a refresh builds depends only on the files, and a second
      refresh over the same files and clock rebuilds byte-identical feed
      bytes, so it changes nothing, the feed's validators included. */
  lemma RefreshIdempotent(st: Store, w: World, env: Env)
    requires ListedPaths(w)
    ensures Refresh(st, w, env).Refreshed? ==> Refresh(Refresh(st, w, env).store, w, env) == Refresh(st, w, env)
  {
  }

  /** Line 182 in listing order: when no file listed after the `k`-th yields a
      post with the same ID, the refreshed map files the `k`-th file's post
      under its ID, so of several files yielding one ID the last one wins. */
  lemma RefreshKeepsLastFile(st: Store, w: World, env: Env, k: nat)
    requires ListedPaths(w)
    requires k < |w.files| && ParseFile(w.files[k], env.decoders).Accepted?
    requires forall l :: k < l < |w.files| && ParseFile(w.files[l], env.decoders).Accepted? ==>
               ParseFile(w.files[l], env.decoders).post.id != ParseFile(w.files[k], env.decoders).post.id
    ensures Refresh(st, w, env).Refreshed? ==>
              var p := ParseFile(w.files[k], env.decoders).post;
              p.id in Refresh(st, w, env).store.index.byId && Refresh(st, w, env).store.index.byId[p.id] == p
  {
    if Refresh(st, w, env).Refreshed? {
      CollectKeepsLastFile(w.files, env.decoders, k);
    }
  }

  /** The refresh keeps the feed cache's validators consistent with its bytes. */
  lemma RefreshKeepsFeedConsistent(st: Store, w: World, env: Env)
    requires ListedPaths(w)
    requires Consistent(st.feed, env.md5)
    ensures Refresh(st, w, env).Refreshed? ==> Consistent(Refresh(st, w, env).store.feed, env.md5)
  {
    if Refresh(st, w, env).Refreshed? {
      var ps := Collect(w.files, env.decoders).value;
      var ix := BuildIndex(ps);
      UpdateKeepsConsistent(st.feed, BuildFeed(Latest(ix.ordered), w, env), env.md5, w.httpDate);
    }
  }

  /** No file's front matter sets the `ID` key, so every post keeps the ID of its file. */
  predicate KeepsFileIds(files: seq<SourceFile>, d: Decoders) {
    forall k :: 0 <= k < |files| && Split(files[k].data).Parts? && d.decode(Split(files[k].data).meta).Some? ==>
      d.decode(Split(files[k].data).meta).value.id.None?
  }

  /** When no front matter overrides an ID, an accepted file's post carries
      the ID of the file. */
  lemma AcceptedKeepsFileId(files: seq<SourceFile>, d: Decoders, k: nat)
    requires forall l :: 0 <= l < |files| ==> Parsable(files[l].name)
    requires KeepsFileIds(files, d)
    requires k < |files| && ParseFile(files[k], d).Accepted?
    ensures ParseFile(files[k], d).post.id == PostID(files[k].name)
  {
    ParseFileOutcomes(files[k], d);
  }

  /** The listing without its first file is still a listing, still without overrides. */
  lemma TailListing(files: seq<SourceFile>, d: Decoders)
    requires files != []
    requires IsListing(files)
    requires KeepsFileIds(files, d)
    ensures IsListing(files[1..])
    ensures KeepsFileIds(files[1..], d)
  {
    var tail := files[1..];
    assert forall k :: 0 <= k < |tail| ==> tail[k] == files[k + 1];
  }

  /** A list whose head's ID is not among its tail's IDs, and whose tail has
      distinct IDs, has distinct IDs. */
  lemma ConsDistinct(p0: Post, rest: seq<Post>)
    requires DistinctIds(rest)
    requires forall p :: p in rest ==> p.id != p0.id
    ensures DistinctIds([p0] + rest)
  {
    var all := [p0] + rest;
    forall i, j | 0 <= i < j < |all| ensures all[i].id != all[j].id {
      assert all[j] == rest[j - 1];
      if i > 0 {
        assert all[i] == rest[i - 1];
      } else {
        assert all[j] in rest;
      }
    }
  }

  /** When no front matter overrides an ID, two accepted files of a listing
      give posts with different IDs. */
  lemma AcceptedIdsDiffer(files: seq<SourceFile>, d: Decoders, k: nat, l: nat)
    requires IsListing(files)
    requires KeepsFileIds(files, d)
    requires k < l < |files|
    requires ParseFile(files[k], d).Accepted? && ParseFile(files[l], d).Accepted?
    ensures ParseFile(files[k], d).post.id != ParseFile(files[l], d).post.id
  {
    AcceptedKeepsFileId(files, d, k);
    AcceptedKeepsFileId(files, d, l);
    if ParseFile(files[k], d).post.id == ParseFile(files[l], d).post.id {
      PostIDInjective(files[k].name, files[l].name);
      assert false;
    }
  }

  /** When no front matter overrides an ID, a post yielded by a file after
      the first has an ID other than that of the first file's post. */
  lemma TailPostIdDiffers(files: seq<SourceFile>, d: Decoders, p: Post)
    requires files != []
    requires IsListing(files)
    requires KeepsFileIds(files, d)
    requires ParseFile(files[0], d).Accepted?
    requires AcceptedFrom(files[1..], d, p)
    ensures p.id != ParseFile(files[0], d).post.id
  {
    var tail := files[1..];
    AcceptedFromAt(tail, d, p);
    var k :| 0 <= k < |tail| && ParseFile(tail[k], d) == Accepted(p);
    assert tail[k] == files[k + 1];
    AcceptedIdsDiffer(files, d, 0, k + 1);
  }

  /** When no front matter overrides an ID, the first file's post has an ID
      that no post collected from the other files has. */
  lemma HeadIdFresh(files: seq<SourceFile>, d: Decoders)
    requires files != []
    requires IsListing(files)
    requires KeepsFileIds(files, d)
    requires ParseFile(files[0], d).Accepted?
    requires Collect(files[1..], d).Some?
    ensures forall p :: p in Collect(files[1..], d).value ==> p.id != ParseFile(files[0], d).post.id
  {
    forall p | p in Collect(files[1..], d).value ensures p.id != ParseFile(files[0], d).post.id {
      TailPostIdDiffers(files, d, p);
    }
  }

  /** When no front matter overrides an ID, the collected posts have distinct
      IDs, since distinct listed files have distinct IDs. */
  lemma {:induction false} CollectedIds(files: seq<SourceFile>, d: Decoders)
    requires IsListing(files)
    requires KeepsFileIds(files, d)
    requires Collect(files, d).Some?
    ensures DistinctIds(Collect(files, d).value)
  {
    if files != [] {
      var tail := files[1..];
      TailListing(files, d);
      CollectedIds(tail, d);
      var rest := Collect(tail, d).value;
      if ParseFile(files[0], d).Accepted? {
        var p0 := ParseFile(files[0], d).post;
        HeadIdFresh(files, d);
        ConsDistinct(p0, rest);
        assert Collect(files, d).value == [p0] + rest;
      }
    }
  }

  /** A listing of N files that parse and M that are skipped (no markers, or
      front matter that does not decode) gives an index of exactly N posts;
      when no front matter overrides an ID, the map has exactly as many
      entries as the list. */
  lemma IndexSizes(st: Store, w: World, env: Env)
    requires IsListing(w.files)
    requires KeepsFileIds(w.files, env.decoders)
    ensures Refresh(st, w, env).Refreshed? ==>
              |Refresh(st, w, env).store.index.ordered| == AcceptedCount(w.files, env.decoders)
    ensures Refresh(st, w, env).Refreshed? ==>
              |Refresh(st, w, env).store.index.byId| == |Refresh(st, w, env).store.index.ordered|
  {
    if Refresh(st, w, env).Refreshed? {
      CollectedIds(w.files, env.decoders);
    }
  }

  /** When no front matter overrides an ID, no accepted file's post carries
      the ID of a skipped file. */
  lemma SkippedIdUnused(files: seq<SourceFile>, d: Decoders, k: nat, m: nat)
    requires IsListing(files)
    requires KeepsFileIds(files, d)
    requires k < |files| && ParseFile(files[k], d).Skipped?
    requires m < |files| && ParseFile(files[m], d).Accepted?
    ensures ParseFile(files[m], d).post.id != PostID(files[k].name)
  {
    AcceptedKeepsFileId(files, d, m);
    if ParseFile(files[m], d).post.id == PostID(files[k].name) {
      PostIDInjective(files[m].name, files[k].name);
      assert false;
    }
  }

  /** A file that is skipped leaves no trace: when no front matter overrides
      an ID, its ID is neither a key of the map nor the ID of a listed post. */
  lemma SkippedFileNotIndexed(st: Store, w: World, env: Env, k: nat)
    requires IsListing(w.files)
    requires KeepsFileIds(w.files, env.decoders)
    requires k < |w.files| && ParseFile(w.files[k], env.decoders).Skipped?
    ensures Refresh(st, w, env).Refreshed? ==>
              PostID(w.files[k].name) !in Refresh(st, w, env).store.index.byId
    ensures Refresh(st, w, env).Refreshed? ==>
              forall p :: p in Refresh(st, w, env).store.index.ordered ==> p.id != PostID(w.files[k].name)
  {
    if Refresh(st, w, env).Refreshed? {
      var ix := Refresh(st, w, env).store.index;
      forall p | p in ix.ordered ensures p.id != PostID(w.files[k].name) {
        AcceptedFromAt(w.files, env.decoders, p);
        var m :| 0 <= m < |w.files| && ParseFile(w.files[m], env.decoders) == Accepted(p);
        SkippedIdUnused(w.files, env.decoders, k, m);
      }
    }
  }

  /** The feed is built from the first `min(10, n)` posts of the new list, and
      none of the posts left out is newer than one it carries. */
  lemma FeedFromNewest(st: Store, w: World, env: Env)
    requires ListedPaths(w)
    ensures Refresh(st, w, env).Refreshed? ==>
            var ordered := Refresh(st, w, env).store.index.ordered;
            && Refresh(st, w, env).store.feed.bytes == BuildFeed(Latest(ordered), w, env)
            && Latest(ordered) == ordered[..if |ordered| < FeedCap then |ordered| else FeedCap]
            && forall p, q :: p in Latest(ordered) && q in ordered[|Latest(ordered)|..] ==>
                 p.datetime.instant >= q.datetime.instant
  {
    if Refresh(st, w, env).Refreshed? {
      LatestAreNewest(Refresh(st, w, env).store.index.ordered);
    }
  }
}

=== FILE: optional.dfy ===
/** The optional value used wherever the blog's Go code has a "comma ok"
    result or a decoder that may fail. */
module Optional {

  datatype Option<+T> = None | Some(value: T) {

    /** The wrapped value, or `default` when there is none. */
    function GetOr(default: T): T {
      match this
      case Some(v) => v
      case None => default
    }
  }
}

=== FILE: ordering.dfy ===
/** The ordering of the post list (main.go, lines 186-188): newest first by
    `Datetime`. `sort.Slice` is not stable, so posts with equal times may come
    out in any order; the sort here fixes one admissible order and its
    contract promises only what every admissible order has: the same posts,
    newest first. */
module Ordering {
  import opened Posts

  /** Non-increasing by time: no post is followed by a newer one. */
  predicate NewestFirst(ps: seq<Post>) {
    forall i, j :: 0 <= i < j < |ps| ==> ps[i].datetime.instant >= ps[j].datetime.instant
  }

  /** Puts `p` into a newest-first list, before the first post it is not older than. */
  function Insert(p: Post, ps: seq<Post>): (r: seq<Post>)
    requires NewestFirst(ps)
    ensures NewestFirst(r)
    ensures forall x :: x in r <==> x == p || x in ps
  {
    if ps == [] || !After(ps[0].datetime, p.datetime) then
      [p] + ps
    else
      var rest := Insert(p, ps[1..]);
      assert forall k :: 0 <= k < |rest| ==> rest[k].datetime.instant <= ps[0].datetime.instant by {
        forall k | 0 <= k < |rest| ensures rest[k].datetime.instant <= ps[0].datetime.instant {
          assert rest[k] in rest;
        }
      }
      [ps[0]] + rest
  }

  /** Inserting adds exactly the one post. */
  lemma {:induction false} InsertPermutes(p: Post, ps: seq<Post>)
    requires NewestFirst(ps)
    ensures multiset(Insert(p, ps)) == multiset(ps) + multiset{p}
  {
    if ps == [] || !After(ps[0].datetime, p.datetime) {
    } else {
      InsertPermutes(p, ps[1..]);
      assert ps == [ps[0]] + ps[1..];
    }
  }

  /** Insertion sort, newest first: a permutation of its input in which no
      post is followed by a newer one. */
  function SortNewestFirst(ps: seq<Post>): (r: seq<Post>)
    ensures NewestFirst(r)
    ensures multiset(r) == multiset(ps)
  {
    if ps == [] then []
    else
      assert ps == [ps[0]] + ps[1..];
      InsertPermutes(ps[0], SortNewestFirst(ps[1..]));
      Insert(ps[0], SortNewestFirst(ps[1..]))
  }
}

=== FILE: post_index.dfy ===
/** The post index rebuilt by each refresh (main.go, lines 159-191): the
    files are parsed in listing order, the accepted posts go into a map by
    ID and into a list, the list is sorted newest first, and both replace
    the old index together. */
module PostIndex {
  import opened Optional
  import opened Posts
  import opened Ordering

  /** The two views of the posts: point lookup by ID and the newest-first list. */
  datatype Views = Views(byId: map<string, Post>, ordered: seq<Post>)

  /** The index before the first refresh: Go's nil map and nil slice. */
  const EmptyIndex: Views := Views(map[], [])

  /** Every name is one the directory listing can return, and no name repeats. */
  predicate IsListing(files: seq<SourceFile>) {
    && (forall k :: 0 <= k < |files| ==> IsPostPath(files[k].name))
    && (forall k, l :: 0 <= k < l < |files| ==> files[k].name != files[l].name)
  }

  /** The IDs of a list of posts. */
  function IdsOf(ps: seq<Post>): set<string> {
    set p | p in ps :: p.id
  }

  /** No two posts of the list share an ID. */
  predicate DistinctIds(ps: seq<Post>) {
    forall i, j :: 0 <= i < j < |ps| ==> ps[i].id != ps[j].id
  }

  /** The number of files whose parse is accepted (a reference count,
      independent of how the posts are collected). */
  function AcceptedCount(files: seq<SourceFile>, d: Decoders): nat
    requires forall k :: 0 <= k < |files| ==> Parsable(files[k].name)
  {
    if files == [] then 0
    else (if ParseFile(files[0], d).Accepted? then 1 else 0) + AcceptedCount(files[1..], d)
  }

  /** What parsing each listed file yields, in listing order. */
  function Outcomes(files: seq<SourceFile>, d: Decoders): (os: seq<FileOutcome>)
    requires forall k :: 0 <= k < |files| ==> Parsable(files[k].name)
    ensures |os| == |files|
    ensures forall k :: 0 <= k < |os| && os[k].Accepted? ==> os[k].post.datetime.zone == UTC
  {
    if files == [] then [] else [ParseFile(files[0], d)] + Outcomes(files[1..], d)
  }

  /** The `k`-th outcome is that of the `k`-th file. */
  lemma {:induction false} OutcomeAt(files: seq<SourceFile>, d: Decoders, k: nat)
    requires forall l :: 0 <= l < |files| ==> Parsable(files[l].name)
    requires k < |files|
    ensures Outcomes(files, d)[k] == ParseFile(files[k], d)
    decreases k
  {
    if k > 0 {
      OutcomeAt(files[1..], d, k - 1);
      assert files[1..][k - 1] == files[k];
    }
  }

  /** Some file of the listing makes the runtime panic. */
  predicate SomePanics(files: seq<SourceFile>, d: Decoders)
    requires forall k :: 0 <= k < |files| ==> Parsable(files[k].name)
  {
    Panicked in Outcomes(files, d)
  }

  /** `p` is the post some file of the listing yields. */
  predicate AcceptedFrom(files: seq<SourceFile>, d: Decoders, p: Post)
    requires forall k :: 0 <= k < |files| ==> Parsable(files[k].name)
  {
    Accepted(p) in Outcomes(files, d)
  }

  /** The listing panics exactly when one of its files does. */
  lemma SomePanicsAt(files: seq<SourceFile>, d: Decoders)
    requires forall k :: 0 <= k < |files| ==> Parsable(files[k].name)
    ensures SomePanics(files, d) <==> exists k :: 0 <= k < |files| && ParseFile(files[k], d).Panicked?
  {
    var os := Outcomes(files, d);
    if SomePanics(files, d) {
      var k :| 0 <= k < |os| && os[k] == Panicked;
      OutcomeAt(files, d, k);
    }
    if exists k :: 0 <= k < |files| && ParseFile(files[k], d).Panicked? {
      var k :| 0 <= k < |files| && ParseFile(files[k], d).Panicked?;
      OutcomeAt(files, d, k);
      assert os[k] == Panicked;
    }
  }

  /** The listing yields `p` exactly when one of its files does. */
  lemma AcceptedFromAt(files: seq<SourceFile>, d: Decoders, p: Post)
    requires forall k :: 0 <= k < |files| ==> Parsable(files[k].name)
    ensures AcceptedFrom(files, d, p) <==> exists k :: 0 <= k < |files| && ParseFile(files[k], d) == Accepted(p)
  {
    var os := Outcomes(files, d);
    if AcceptedFrom(files, d, p) {
      var k :| 0 <= k < |os| && os[k] == Accepted(p);
      OutcomeAt(files, d, k);
    }
    if exists k :: 0 <= k < |files| && ParseFile(files[k], d) == Accepted(p) {
      var k :| 0 <= k < |files| && ParseFile(files[k], d) == Accepted(p);
      OutcomeAt(files, d, k);
      assert os[k] == Accepted(p);
    }
  }

  /** The loop at lines 163-184: the accepted posts in listing order, or None
      when some file makes the runtime panic (which abandons the loop). There
      is one post per accepted file, and the posts are exactly those the
      files yield. */
  function Collect(files: seq<SourceFile>, d: Decoders): (r: Option<seq<Post>>)
    requires forall k :: 0 <= k < |files| ==> Parsable(files[k].name)
    ensures r.None? <==> SomePanics(files, d)
    ensures r.Some? ==> |r.value| == AcceptedCount(files, d)
    ensures r.Some? ==> forall p :: p in r.value <==> AcceptedFrom(files, d, p)
  {
    if files == [] then Some([])
    else
      var rest := Collect(files[1..], d);
      match ParseFile(files[0], d)
      case Panicked => None
      case Skipped => rest
      case Accepted(p) =>
        if rest.None? then None else Some([p] + rest.value)
  }

  /** `x` is the post of some file listed after the `k`-th. */
  predicate ListedLater(files: seq<SourceFile>, d: Decoders, k: nat, x: Post)
    requires forall l :: 0 <= l < |files| ==> Parsable(files[l].name)
  {
    exists l :: k < l < |files| && ParseFile(files[l], d) == Accepted(x)
  }

  /** A post of a later file in the tail is a post of a later file in the whole listing. */
  lemma ListedLaterTail(files: seq<SourceFile>, d: Decoders, k: nat, x: Post)
    requires forall l :: 0 <= l < |files| ==> Parsable(files[l].name)
    requires files != []
    requires ListedLater(files[1..], d, k, x)
    ensures ListedLater(files, d, k + 1, x)
  {
    var tail := files[1..];
    var l :| k < l < |tail| && ParseFile(tail[l], d) == Accepted(x);
    assert tail[l] == files[l + 1];
  }

  /** Indexing into the tail of a listing. */
  lemma TailAt(files: seq<SourceFile>, k: nat)
    requires 0 < k < |files|
    ensures files[1..][k - 1] == files[k]
  {
  }

  /** Indexing past the head of a list. */
  lemma ConsAt(ps: seq<Post>, p0: Post, rest: seq<Post>, j: nat)
    requires ps == [p0] + rest
    requires 0 < j < |ps|
    ensures ps[j] == rest[j - 1]
  {
  }

  /** The posts come out in listing order: the post of the `k`-th file sits at
      some position `i` of the collected list, and every post after it is
      the post of a file listed after the `k`-th. */
  lemma {:induction false} CollectedAfter(files: seq<SourceFile>, d: Decoders, k: nat) returns (i: nat)
    requires forall l :: 0 <= l < |files| ==> Parsable(files[l].name)
    requires Collect(files, d).Some?
    requires k < |files| && ParseFile(files[k], d).Accepted?
    ensures i < |Collect(files, d).value|
    ensures Collect(files, d).value[i] == ParseFile(files[k], d).post
    ensures forall j :: i < j < |Collect(files, d).value| ==> ListedLater(files, d, k, Collect(files, d).value[j])
    decreases k, 1
  {
    if ParseFile(files[0], d).Skipped? {
      i := CollectedAfterSkip(files, d, k);
    } else if k == 0 {
      i := 0;
      RestListedLater(files, d);
    } else {
      i := CollectedAfterCons(files, d, k);
    }
  }

  /** `CollectedAfter` when the first file is skipped: positions are those of the tail. */
  lemma {:induction false} CollectedAfterSkip(files: seq<SourceFile>, d: Decoders, k: nat) returns (i: nat)
    requires forall l :: 0 <= l < |files| ==> Parsable(files[l].name)
    requires Collect(files, d).Some?
    requires k < |files| && ParseFile(files[k], d).Accepted?
    requires ParseFile(files[0], d).Skipped?
    ensures i < |Collect(files, d).value|
    ensures Collect(files, d).value[i] == ParseFile(files[k], d).post
    ensures forall j :: i < j < |Collect(files, d).value| ==> ListedLater(files, d, k, Collect(files, d).value[j])
    decreases k, 0
  {
    assert k != 0;
    TailAt(files, k);
    CollectSkipsHead(files, d);
    i := CollectedAfter(files[1..], d, k - 1);
    LaterInTail(files, d, k - 1, Collect(files, d).value, i);
  }

  /** A skipped first file adds nothing to the collected posts. */
  lemma CollectSkipsHead(files: seq<SourceFile>, d: Decoders)
    requires forall l :: 0 <= l < |files| ==> Parsable(files[l].name)
    requires files != [] && ParseFile(files[0], d).Skipped?
    ensures Collect(files, d) == Collect(files[1..], d)
  {
  }

  /** `CollectedAfter` when the first file is accepted and is not the `k`-th:
      positions are those of the tail, shifted by one. */
  lemma {:induction false} CollectedAfterCons(files: seq<SourceFile>, d: Decoders, k: nat) returns (i: nat)
    requires forall l :: 0 <= l < |files| ==> Parsable(files[l].name)
    requires Collect(files, d).Some?
    requires k < |files| && ParseFile(files[k], d).Accepted?
    requires ParseFile(files[0], d).Accepted? && k != 0
    ensures i < |Collect(files, d).value|
    ensures Collect(files, d).value[i] == ParseFile(files[k], d).post
    ensures forall j :: i < j < |Collect(files, d).value| ==> ListedLater(files, d, k, Collect(files, d).value[j])
    decreases k, 0
  {
    var tail := files[1..];
    var ps := Collect(files, d).value;
    var rest := Collect(tail, d).value;
    var p0 := ParseFile(files[0], d).post;
    assert ps == [p0] + rest;
    TailAt(files, k);
    var i' := CollectedAfter(tail, d, k - 1);
    i := i' + 1;
    ConsAt(ps, p0, rest, i);
    LaterInTail(files, d, k - 1, rest, i');
    LaterPastHead(files, d, k, ps, p0, rest, i');
  }

  /** Posts of files listed later in the tail are posts of files listed later in the whole listing. */
  lemma LaterInTail(files: seq<SourceFile>, d: Decoders, k: nat, ps: seq<Post>, i: nat)
    requires forall l :: 0 <= l < |files| ==> Parsable(files[l].name)
    requires files != []
    requires forall j :: i < j < |ps| ==> ListedLater(files[1..], d, k, ps[j])
    ensures forall j :: i < j < |ps| ==> ListedLater(files, d, k + 1, ps[j])
  {
    forall j | i < j < |ps| ensures ListedLater(files, d, k + 1, ps[j]) {
      ListedLaterTail(files, d, k, ps[j]);
    }
  }

  /** Putting a post in front shifts every position by one. */
  lemma LaterPastHead(files: seq<SourceFile>, d: Decoders, k: nat, ps: seq<Post>, p0: Post, rest: seq<Post>, i: nat)
    requires forall l :: 0 <= l < |files| ==> Parsable(files[l].name)
    requires ps == [p0] + rest
    requires forall j :: i < j < |rest| ==> ListedLater(files, d, k, rest[j])
    ensures forall j :: i + 1 < j < |ps| ==> ListedLater(files, d, k, ps[j])
  {
    forall j | i + 1 < j < |ps| ensures ListedLater(files, d, k, ps[j]) {
      ConsAt(ps, p0, rest, j);
    }
  }

  /** Every post collected after the first file's comes from a later file. */
  lemma RestListedLater(files: seq<SourceFile>, d: Decoders)
    requires forall l :: 0 <= l < |files| ==> Parsable(files[l].name)
    requires Collect(files, d).Some?
    requires files != [] && ParseFile(files[0], d).Accepted?
    ensures forall j :: 0 < j < |Collect(files, d).value| ==> ListedLater(files, d, 0, Collect(files, d).value[j])
  {
    var tail := files[1..];
    var ps := Collect(files, d).value;
    var rest := Collect(tail, d);
    var p0 := ParseFile(files[0], d).post;
    assert ps == [p0] + rest.value;
    forall j | 0 < j < |ps| ensures ListedLater(files, d, 0, ps[j]) {
      var x := rest.value[j - 1];
      ConsAt(ps, p0, rest.value, j);
      AcceptedFromAt(tail, d, x);
      var l :| 0 <= l < |tail| && ParseFile(tail[l], d) == Accepted(x);
      assert tail[l] == files[l + 1];
    }
  }

  /** With the posts in listing order, the map keeps the post of the last
      file yielding an ID. */
  lemma CollectKeepsLastFile(files: seq<SourceFile>, d: Decoders, k: nat)
    requires forall l :: 0 <= l < |files| ==> Parsable(files[l].name)
    requires Collect(files, d).Some?
    requires k < |files| && ParseFile(files[k], d).Accepted?
    requires forall l :: k < l < |files| && ParseFile(files[l], d).Accepted? ==>
               ParseFile(files[l], d).post.id != ParseFile(files[k], d).post.id
    ensures ParseFile(files[k], d).post.id in MapOf(Collect(files, d).value)
    ensures MapOf(Collect(files, d).value)[ParseFile(files[k], d).post.id] == ParseFile(files[k], d).post
  {
    var ps := Collect(files, d).value;
    var i := CollectedAfter(files, d, k);
    forall j | i < j < |ps| ensures ps[j].id != ps[i].id {
      assert ListedLater(files, d, k, ps[j]);
    }
    MapOfLastWins(ps, i);
  }

  /** Lines 182 and 190: each accepted post is stored under its ID, a later
      post overwriting an earlier one with the same ID. The keys are exactly
      the posts' IDs and each entry is one of the posts, filed under its own ID. */
  function MapOf(ps: seq<Post>): (m: map<string, Post>)
    ensures m.Keys == IdsOf(ps)
    ensures forall k :: k in m ==> m[k].id == k && m[k] in ps
  {
    if ps == [] then map[]
    else
      var init := ps[..|ps| - 1];
      var last := ps[|ps| - 1];
      assert forall p :: p in ps <==> p in init || p == last by {
        assert ps == init + [last];
      }
      MapOf(init)[last.id := last]
  }

  /** The last post with a given ID is the one the map keeps. */
  lemma {:induction false} MapOfLastWins(ps: seq<Post>, i: nat)
    requires i < |ps|
    requires forall j :: i < j < |ps| ==> ps[j].id != ps[i].id
    ensures ps[i].id in MapOf(ps) && MapOf(ps)[ps[i].id] == ps[i]
  {
    var init := ps[..|ps| - 1];
    if i < |ps| - 1 {
      MapOfLastWins(init, i);
    }
  }

  /** With distinct IDs nothing is overwritten: the map has one entry per post. */
  lemma {:induction false} MapOfSize(ps: seq<Post>)
    requires DistinctIds(ps)
    ensures |MapOf(ps)| == |ps|
  {
    if ps != [] {
      var init := ps[..|ps| - 1];
      var last := ps[|ps| - 1];
      assert DistinctIds(init);
      MapOfSize(init);
      assert last.id !in IdsOf(init);
    }
  }

  /** When IDs repeat, the index keeps the post read last: the map built from
      the posts in listing order files under an ID the last post carrying it. */
  lemma IndexKeepsLastPost(ps: seq<Post>, i: nat)
    requires forall p :: p in ps ==> p.datetime.zone == UTC
    requires i < |ps|
    requires forall j :: i < j < |ps| ==> ps[j].id != ps[i].id
    ensures ps[i].id in BuildIndex(ps).byId && BuildIndex(ps).byId[ps[i].id] == ps[i]
  {
    MapOfLastWins(ps, i);
  }

  /** The invariant the two views keep: the map's keys are exactly the IDs in
      the list, each entry is filed under its own ID and is one of the listed
      posts, the list is newest first and every time in it is in UTC. */
  predicate Coherent(ix: Views) {
    && ix.byId.Keys == IdsOf(ix.ordered)
    && (forall k :: k in ix.byId ==> ix.byId[k].id == k && ix.byId[k] in ix.ordered)
    && NewestFirst(ix.ordered)
    && (forall p :: p in ix.ordered ==> p.datetime.zone == UTC)
  }

  /** Lines 182-191 after the loop: the map from the posts in listing order,
      the list sorted newest first; the map is the one of `MapOf`, so a later
      post wins over an earlier one with the same ID, and the list is a
      permutation of the posts. */
  function BuildIndex(ps: seq<Post>): (ix: Views)
    requires forall p :: p in ps ==> p.datetime.zone == UTC
    ensures Coherent(ix)
    ensures multiset(ix.ordered) == multiset(ps)
    ensures ix.byId == MapOf(ps)
    ensures DistinctIds(ps) ==> |ix.byId| == |ix.ordered|
  {
    var sorted := SortNewestFirst(ps);
    assert forall p :: p in sorted <==> p in ps by {
      forall p ensures p in sorted <==> p in ps {
        assert p in sorted <==> p in multiset(sorted);
      }
    }
    if DistinctIds(ps) then MapOfSize(ps); Views(MapOf(ps), sorted)
    else Views(MapOf(ps), sorted)
  }
}

=== FILE: posts.dfy ===
/** One post and how one source file becomes one (main.go, lines 33-38 and
    159-180): the ID comes from the file name, the content from rendering
    the body, and the remaining fields from decoding the front matter. */
module Posts {
  import opened Optional
  import opened Bytes
  import opened FrontMatter

  /** A time zone: UTC or a named fixed offset (seconds east of UTC). */
  datatype Zone = UTC | Fixed(name: string, offset: int)

  /** A `time.Time`: an instant (nanoseconds since the Unix epoch) shown in a zone. */
  datatype Time = Time(instant: int, zone: Zone)

  /** Go's zero `time.Time`, January 1 of year 1, 00:00:00 UTC. */
  const ZeroTime: Time := Time(-62135596800 * 1000000000, UTC)

  /** `t.UTC()`: the same instant, shown in UTC. */
  function ToUTC(t: Time): (r: Time)
    ensures r.zone == UTC && r.instant == t.instant
  {
    Time(t.instant, UTC)
  }

  /** `a.After(b)`: the comparison the post ordering uses. It compares
      instants, so the zones the two times are shown in do not matter. */
  predicate After(a: Time, b: Time): (r: bool)
    ensures r <==> ToUTC(a).instant > ToUTC(b).instant
  {
    a.instant > b.instant
  }

  /** Normalising to UTC is idempotent and keeps the order of any two times. */
  lemma ToUTCKeepsOrder(a: Time, b: Time)
    ensures ToUTC(ToUTC(a)) == ToUTC(a)
    ensures After(ToUTC(a), ToUTC(b)) <==> After(a, b)
  {
  }

  /** `After` is a strict order whose incomparable times are the equal
      instants, which is what lets the sort put posts newest first. */
  lemma AfterIsStrictOrder(a: Time, b: Time, c: Time)
    ensures !After(a, a)
    ensures After(a, b) ==> !After(b, a)
    ensures After(a, b) && After(b, c) ==> After(a, c)
    ensures !After(a, b) && !After(b, a) <==> a.instant == b.instant
  {
  }

  datatype Post = Post(id: string, title: string, datetime: Time, content: string)

  /** The fields a successful decode of the front matter assigns. The decoder
      matches keys to the exported fields of the post record, so the front
      matter may set any of them, the ID and the content included; a field it
      leaves out keeps the value the post already had. */
  datatype Fields = Fields(
    id: Option<string>,
    title: Option<string>,
    datetime: Option<Time>,
    content: Option<string>)

  /** The library code the parser calls: the front-matter decoder, a partial
      function that fails on malformed input, and the Markdown renderer. */
  datatype Decoders = Decoders(
    decode: seq<byte> -> Option<Fields>,
    render: seq<byte> -> string)

  /** A file the directory listing returned: its name and its bytes (a file
      that cannot be read contributes no bytes). */
  datatype SourceFile = SourceFile(name: string, data: seq<byte>)

  const PostsPrefix: string := "posts/"
  const MarkdownSuffix: string := ".md"

  /** `fn` is a name the directory listing can return: the directory prefix
      `posts/`, a name without a path separator, the extension `.md`. */
  predicate IsPostPath(fn: string) {
    && |fn| >= |PostsPrefix| + |MarkdownSuffix|
    && fn[..|PostsPrefix|] == PostsPrefix
    && fn[|fn| - |MarkdownSuffix|..] == MarkdownSuffix
    && forall k :: |PostsPrefix| <= k < |fn| - |MarkdownSuffix| ==> fn[k] != '/'
  }

  /** `fn` is long enough for the slice that takes the ID out of it; every
      post path is. */
  predicate Parsable(fn: string) {
    |fn| >= |PostsPrefix| + |MarkdownSuffix|
  }

  /** `fn[6 : len(fn)-3]`: the file name without the 6-character directory
      prefix and the 3-character extension. For a post path, putting them
      back gives the file name, so distinct files get distinct IDs. */
  function PostID(fn: string): (id: string)
    requires Parsable(fn)
    ensures |id| == |fn| - |PostsPrefix| - |MarkdownSuffix|
    ensures IsPostPath(fn) ==> PostsPrefix + id + MarkdownSuffix == fn
    ensures IsPostPath(fn) ==> '/' !in id
  {
    var id := fn[6..|fn| - 3];
    assert fn == fn[..6] + id + fn[|fn| - 3..];
    id
  }

  /** The file a post ID is read from. */
  function PostPath(id: string): (fn: string)
    requires '/' !in id
    ensures IsPostPath(fn)
    ensures PostID(fn) == id
  {
    var fn := PostsPrefix + id + MarkdownSuffix;
    assert fn[..6] == PostsPrefix;
    assert fn[|fn| - 3..] == MarkdownSuffix;
    assert fn[6..|fn| - 3] == id;
    fn
  }

  /** Distinct files matching the pattern have distinct IDs. */
  lemma PostIDInjective(a: string, b: string)
    requires IsPostPath(a) && IsPostPath(b)
    requires PostID(a) == PostID(b)
    ensures a == b
  {
  }

  /** The example from the blog's own layout: `posts/2024-01-01.md` has ID `2024-01-01`. */
  lemma ExamplePostID()
    ensures IsPostPath("posts/2024-01-01.md")
    ensures PostID("posts/2024-01-01.md") == "2024-01-01"
  {
    assert "posts/2024-01-01.md" == PostsPrefix + "2024-01-01" + MarkdownSuffix;
  }

  /** Front matter that sets no field. */
  const NoFields: Fields := Fields(None, None, None, None)

  /** The decoder writes the fields it found into the post it was given: a
      field it found replaces the post's, every other field is kept. */
  function Overlay(p: Post, f: Fields): (r: Post)
    ensures f.id.Some? ==> r.id == f.id.value
    ensures f.id.None? ==> r.id == p.id
    ensures f.title.Some? ==> r.title == f.title.value
    ensures f.title.None? ==> r.title == p.title
    ensures f.datetime.Some? ==> r.datetime == f.datetime.value
    ensures f.datetime.None? ==> r.datetime == p.datetime
    ensures f.content.Some? ==> r.content == f.content.value
    ensures f.content.None? ==> r.content == p.content
  {
    Post(f.id.GetOr(p.id), f.title.GetOr(p.title), f.datetime.GetOr(p.datetime), f.content.GetOr(p.content))
  }

  /** Decoding nothing changes nothing, and decoding the same fields twice is
      the same as decoding them once. */
  lemma OverlayLaws(p: Post, f: Fields)
    ensures Overlay(p, NoFields) == p
    ensures Overlay(Overlay(p, f), f) == Overlay(p, f)
  {
  }

  /** What parsing one file yields. */
  datatype FileOutcome =
    | Skipped            // fewer than two markers, or the front matter does not decode
    | Panicked           // the metadata slice is inverted: the Go runtime panics
    | Accepted(post: Post)

  /** One iteration of the loop at lines 163-184: split the bytes, start a post
      with the ID from the name and the rendered body, let the decoded front
      matter fill it in, normalise its time to UTC. */
  function ParseFile(f: SourceFile, d: Decoders): (r: FileOutcome)
    requires Parsable(f.name)
    ensures r.Accepted? ==> r.post.datetime.zone == UTC
  {
    match Split(f.data)
    case Unmarked => Skipped
    case SlicePanic => Panicked
    case Parts(meta, body) =>
      match d.decode(meta)
      case None => Skipped
      case Some(fs) =>
        var p := Overlay(Post(PostID(f.name), "", ZeroTime, d.render(body)), fs);
        Accepted(p.(datetime := ToUTC(p.datetime)))
  }

  /** A file is skipped exactly when it has fewer than two markers or its
      front matter does not decode; parsing panics exactly when the metadata
      slice is inverted; an accepted post whose front matter sets no `ID`
      carries the ID of its file. */
  lemma ParseFileOutcomes(f: SourceFile, d: Decoders)
    requires Parsable(f.name)
    ensures ParseFile(f, d).Skipped? <==> Count(f.data) < 2 || (Split(f.data).Parts? && d.decode(Split(f.data).meta).None?)
    ensures ParseFile(f, d).Panicked? <==> Split(f.data).SlicePanic?
    ensures ParseFile(f, d).Accepted? <==> Split(f.data).Parts? && d.decode(Split(f.data).meta).Some?
    ensures ParseFile(f, d).Accepted? && d.decode(Split(f.data).meta).value.id.None? ==> ParseFile(f, d).post.id == PostID(f.name)
  {
  }

  /** A post's fields other than its time come from the front matter when it
      sets them and otherwise from the file: the ID from its name, the title
      empty, the content rendered from its body; the time is the decoded
      time (Go's zero time when absent) in UTC. */
  lemma AcceptedPostFields(f: SourceFile, d: Decoders, fs: Fields)
    requires Parsable(f.name)
    requires Split(f.data).Parts? && d.decode(Split(f.data).meta) == Some(fs)
    ensures ParseFile(f, d).Accepted?
    ensures ParseFile(f, d).post.id == fs.id.GetOr(PostID(f.name))
    ensures ParseFile(f, d).post.title == fs.title.GetOr("")
    ensures ParseFile(f, d).post.content == fs.content.GetOr(d.render(Split(f.data).body))
    ensures ParseFile(f, d).post.datetime.instant == fs.datetime.GetOr(ZeroTime).instant
  {
  }

  /** A worked example: `posts/2024-01-01.md` holding `WellFormed`, whose
      front matter decodes to a title and nothing else, becomes the post
      `2024-01-01` with that title, Go's zero time and the rendered body. */
  lemma ExamplePostFile(d: Decoders)
    requires d.decode([0x0A, 0x54, 0x0A]) == Some(Fields(None, Some("T"), None, None))
    ensures ParseFile(SourceFile("posts/2024-01-01.md", WellFormed), d)
              == Accepted(Post("2024-01-01", "T", ZeroTime, d.render([0x0A, 0x62])))
  {
    WellFormedSplit();
    ExamplePostID();
  }
}

=== FILE: server.dfy ===
/** The refresh gate and the handlers that pass through it (main.go, lines
    41, 70, 218-259). The gate is a one-shot flag: the first request that
    needs the posts runs the refresh and closes it, later requests go
    straight to the stored index and feed, and a change in the posts
    directory reopens it. Requests are taken one at a time. */
module Server {
  import opened Bytes
  import opened Posts
  import opened Ordering
  import opened PostIndex
  import opened Feed
  import opened Ingest
  import opened ErrorPages

  /** The server's state: whether the gate has run, and what the refresh stored. */
  datatype Site = Site(done: bool, store: Store)

  /** At start-up the gate is open and nothing is stored. */
  const Start: Site := Site(false, InitialStore)

  /** The result of passing the gate: the new state, whether the refresh ran,
      and whether it panicked (the panic then reaches the request). */
  datatype Pass = Pass(site: Site, ran: bool, panicked: bool)

  /** `postsOnce.Do(parsePosts)`: the refresh runs exactly when the gate is
      open; afterwards the gate is closed, even when the refresh panicked, and
      a panicking refresh leaves the stored index and feed as they were. */
  function Do(s: Site, w: World, env: Env): (r: Pass)
    requires ListedPaths(w)
    ensures r.ran <==> !s.done
    ensures r.site.done
    ensures !r.ran ==> r.site == s && !r.panicked
    ensures r.panicked ==> r.site.store == s.store
    ensures r.ran ==> (r.panicked <==> Refresh(s.store, w, env).RefreshPanicked?)
    ensures r.ran && !r.panicked ==> Refresh(s.store, w, env) == Refreshed(r.site.store)
    ensures Coherent(s.store.index) ==> Coherent(r.site.store.index)
  {
    if s.done then Pass(s, false, false)
    else
      match Refresh(s.store, w, env)
      case RefreshPanicked => Pass(Site(true, s.store), true, true)
      case Refreshed(st) => Pass(Site(true, st), true, false)
  }

  /** Line 70: a file event in the posts directory replaces the gate with a
      fresh one; what is stored stays. */
  function FileEvent(s: Site): (r: Site)
    ensures !r.done && r.store == s.store
  {
    s.(done := false)
  }

  /** Two requests with no file event between them run the refresh once: the
      second finds the gate closed and leaves everything as the first left it,
      whatever the files now hold. */
  lemma DoTwiceRunsOnce(s: Site, w1: World, w2: World, env: Env)
    requires ListedPaths(w1) && ListedPaths(w2)
    requires !s.done
    ensures Do(s, w1, env).ran
    ensures !Do(Do(s, w1, env).site, w2, env).ran
    ensures Do(Do(s, w1, env).site, w2, env).site == Do(s, w1, env).site
  {
  }

  /** After a file event the next request runs the refresh again. */
  lemma EventReopensGate(s: Site, w: World, env: Env)
    requires ListedPaths(w)
    ensures Do(FileEvent(s), w, env).ran
  {
  }

  /** What happens to the server, in order. */
  datatype Step = Request(w: World) | Change

  predicate AllListed(steps: seq<Step>) {
    forall k :: 0 <= k < |steps| && steps[k].Request? ==> ListedPaths(steps[k].w)
  }

  /** The number of file events in a run. */
  function Changes(steps: seq<Step>): nat {
    if steps == [] then 0 else (if steps[0].Change? then 1 else 0) + Changes(steps[1..])
  }

  /** Plays the steps from `s`: the final state and how many times the refresh ran. */
  function Replay(s: Site, steps: seq<Step>, env: Env): (r: (Site, nat))
    requires AllListed(steps)
    decreases |steps|
  {
    if steps == [] then (s, 0)
    else
      assert forall k :: 1 <= k < |steps| ==> steps[1..][k - 1] == steps[k];
      match steps[0]
      case Change => Replay(FileEvent(s), steps[1..], env)
      case Request(w) =>
        var p := Do(s, w, env);
        var rest := Replay(p.site, steps[1..], env);
        (rest.0, rest.1 + (if p.ran then 1 else 0))
  }

  /** Single flight: however many requests arrive, the refresh runs at most
      once per file event, plus once more if the gate starts open. */
  lemma {:induction false} RefreshRunsBounded(s: Site, steps: seq<Step>, env: Env)
    requires AllListed(steps)
    decreases |steps|
    ensures Replay(s, steps, env).1 <= Changes(steps) + (if s.done then 0 else 1)
  {
    if steps != [] {
      var tail := steps[1..];
      assert forall k :: 1 <= k < |steps| ==> tail[k - 1] == steps[k];
      assert AllListed(tail);
      match steps[0]
      case Change =>
        RefreshRunsBounded(FileEvent(s), tail, env);
        assert Replay(s, steps, env) == Replay(FileEvent(s), tail, env);
        assert Changes(steps) == 1 + Changes(tail);
      case Request(w) =>
        var p := Do(s, w, env);
        RefreshRunsBounded(p.site, tail, env);
        assert Replay(s, steps, env).1 == Replay(p.site, tail, env).1 + (if p.ran then 1 else 0);
        assert Changes(steps) == Changes(tail);
    }
  }

  /** What `postsHandler` renders: the newest-first list. */
  datatype ListReply = Listed(posts: seq<Post>) | ListPanicked

  /** Lines 218-225. */
  function ServePosts(s: Site, w: World, env: Env): (out: (Site, ListReply))
    requires ListedPaths(w)
    ensures out.0 == Do(s, w, env).site
    ensures out.1.Listed? ==> out.1.posts == out.0.store.index.ordered
    ensures out.1.ListPanicked? <==> Do(s, w, env).panicked
  {
    var p := Do(s, w, env);
    if p.panicked then (p.site, ListPanicked) else (p.site, Listed(p.site.store.index.ordered))
  }

  /** The posts page agrees with the post pages: when the stored index is
      coherent, the list shown is newest first and every post on it can be
      looked up by its ID. */
  lemma ServePostsLinksResolve(s: Site, w: World, env: Env)
    requires ListedPaths(w)
    requires Coherent(s.store.index)
    ensures var out := ServePosts(s, w, env);
            out.1.Listed? ==>
              && NewestFirst(out.1.posts)
              && forall p :: p in out.1.posts ==> p.id in out.0.store.index.byId
  {
    var out := ServePosts(s, w, env);
    if out.1.Listed? {
      assert Coherent(out.0.store.index);
      forall p | p in out.1.posts ensures p.id in out.0.store.index.byId {
        assert p.id in IdsOf(out.0.store.index.ordered);
      }
    }
  }

  /** What `postHandler` renders: the post, or the not-found answer. */
  datatype PostReply = Found(post: Post) | Missing(res: Response, err: HandlerError) | PostPanicked

  /** Lines 227-241: after the gate, the ID is looked up in the map; an ID
      not in the map gets the not-found answer, status 404. */
  function ServePost(s: Site, id: string, res: Response, w: World, env: Env): (out: (Site, PostReply))
    requires ListedPaths(w)
    ensures out.0 == Do(s, w, env).site
    ensures out.1.Found? <==> !Do(s, w, env).panicked && id in out.0.store.index.byId
    ensures out.1.Found? ==> out.1.post == out.0.store.index.byId[id]
    ensures Coherent(s.store.index) && out.1.Found? ==> out.1.post.id == id && out.1.post in out.0.store.index.ordered
    ensures out.1.Missing? ==> out.1.res.status == 404 && out.1.err.text == "Not Found"
    ensures out.1.Missing? ==> (out.1.res, out.1.err) == NotFound(res)
    ensures out.1.PostPanicked? <==> Do(s, w, env).panicked
  {
    var p := Do(s, w, env);
    if p.panicked then (p.site, PostPanicked)
    else if id in p.site.store.index.byId then (p.site, Found(p.site.store.index.byId[id]))
    else
      var (res', err) := NotFound(res);
      (p.site, Missing(res', err))
  }

  /** An index the server holds is always coherent: the start index is, and
      every refresh builds one. */
  predicate Sound(s: Site, md5: seq<byte> -> Digest) {
    Coherent(s.store.index) && Consistent(s.store.feed, md5)
  }

  lemma StartIsSound(md5: seq<byte> -> Digest)
    ensures Sound(Start, md5)
  {
  }

  /** Passing the gate and file events keep the server sound. */
  lemma DoKeepsSound(s: Site, w: World, env: Env)
    requires ListedPaths(w)
    requires Sound(s, env.md5)
    ensures Sound(Do(s, w, env).site, env.md5)
  {
    if !s.done && Refresh(s.store, w, env).Refreshed? {
      RefreshKeepsFeedConsistent(s.store, w, env);
    }
  }

  /** The feed answer: the headers set at lines 253-256 and the cached bytes. */
  datatype FeedReply = FeedReply(headers: map<string, string>, body: seq<byte>) | FeedPanicked

  /** Lines 250-259. */
  function ServeFeed(s: Site, w: World, env: Env): (out: (Site, FeedReply))
    requires ListedPaths(w)
    ensures out.0 == Do(s, w, env).site
    ensures out.1.FeedReply? ==>
              && out.1.body == out.0.store.feed.bytes
              && out.1.headers.Keys == {"content-type", "cache-control", "etag", "last-modified"}
              && out.1.headers["content-type"] == "application/atom+xml; charset=utf-8"
              && out.1.headers["cache-control"] == "max-age=3600"
              && out.1.headers["etag"] == out.0.store.feed.etag
              && out.1.headers["last-modified"] == out.0.store.feed.lastModified
    ensures out.1.FeedPanicked? <==> Do(s, w, env).panicked
  {
    var p := Do(s, w, env);
    if p.panicked then (p.site, FeedPanicked)
    else
      var f := p.site.store.feed;
      var headers := map[
        "content-type" := "application/atom+xml; charset=utf-8",
        "cache-control" := "max-age=3600",
        "etag" := f.etag,
        "last-modified" := f.lastModified];
      (p.site, FeedReply(headers, f.bytes))
  }

  /** The ETag served with the feed is always the one of the bytes served with
      it, unless no feed bytes were ever stored, in which case both the body
      and the ETag are empty. */
  lemma FeedETagMatchesBody(s: Site, w: World, env: Env)
    requires ListedPaths(w)
    requires Sound(s, env.md5)
    ensures var reply := ServeFeed(s, w, env).1;
            reply.FeedReply? ==>
            reply.headers["etag"] == ETag(env.md5(reply.body)) || (reply.body == [] && reply.headers["etag"] == "")
  {
    DoKeepsSound(s, w, env);
  }
}
